=== FILE: README.md ===
# Multiple Cheque Entry: a Dafny model of the cheque-batch client logic

The "Multiple Cheque Entry" document of the ecs_cheques Frappe/ERPNext app
holds a batch of cheques in one of two child tables: `cheque_table_2`
("Cheque Table Pay") when the company pays, `cheque_table`
("Cheque Table Receive") otherwise. When the document is submitted, a
client-side hook:

1. resolves one pair of ledger accounts (`paid_to`, `paid_from`) and a
   currency for the whole batch. Explicit override fields on the document
   win outright. Otherwise the Bank Account, Mode of Payment,
   Customer/Supplier and Company records are read and combined by payment
   direction, with the document's legacy account fields as a final
   fallback;
2. builds one Payment Entry for every cheque row that has no
   `payment_entry` yet. Each entry repeats the accounts and currency under
   several alias field names;
3. inserts and submits those entries one at a time. After each submit it
   writes the new entry's name back onto the cheque row. An insert or
   submit failure stops the batch. A failed write-back does not.

A separate hook copies the party and the company into the person/issuer
names of every row of a table.

The model is pure and functional:

- Document fields are strings. The empty string stands for every falsy
  JavaScript value (null, undefined, "").
- The result of an `a || b || null` chain is an `Option<string>` that is
  never `Some("")`.
- Amounts are natural numbers, with 0 meaning absent.
- The record reads are answered from a pre-fetched map, `Resolver.Store`.
- The store's answers to each insert, submit and write-back come in as a
  sequence of `Batch.Remote` values, one per planned row.

The modules:

- `Values`: `||` chains.
- `Records`: `firstNonEmpty`.
- `Entry`: the document, its rows and its direction.
- `Resolver`: `getDocValue` and `autoDetectAccounts`.
- `Payload`: the Payment Entry object, including `buildPaymentEntryPayload`.
- `Batch`: planning, the promise chain and the hook's outcome.
- `Links`: how the write-backs change the cheque tables.
- `Beneficiary`: the person/issuer autofill.
- `Scenarios`: worked batches.

Consequences of the code that the proofs make explicit:

- A currency override alone counts as an override. It skips every lookup,
  so the batch stops with "Missing Account" (`Resolver.CurrencyOverrideAlone`).
- A row whose entry was submitted but whose write-back failed stays
  unlinked. A later submit plans it again, so a second Payment Entry is
  created for the same cheque (`Links.UnlinkedRowAfterRun`).
- The rows after a failed insert or submit are likewise left unlinked.
  After a submit failure, the inserted draft of the failing row stays in
  the store.

## Model

| member | source | states |
|---|---|---|
| Values.FirstPresent | ecs_cheques/ecs_cheques/doctype/multiple_cheque_entry/multiple_cheque_entry.js:117-119 | an `a \|\| b \|\| … \|\| null` chain yields the earliest non-empty candidate. It is null exactly when every candidate is empty, and never the empty string |
| Records.FirstNonEmpty | ecs_cheques/ecs_cheques/doctype/multiple_cheque_entry/multiple_cheque_entry.js:82-88 | the result is the value of the earliest key the object holds with a truthy value, with every earlier key lacking one. It is null exactly when the object is null or no key qualifies |
| Records.FirstNonEmptyIsChain | ecs_cheques/ecs_cheques/doctype/multiple_cheque_entry/multiple_cheque_entry.js:82-88 | scanning the keys gives the same result as the `obj.k1 \|\| obj.k2 \|\| …` chain over the same keys, so the two spellings the resolver mixes agree |
| Entry.DirectionOf | ecs_cheques/ecs_cheques/doctype/multiple_cheque_entry/multiple_cheque_entry.js:200-201 | the direction is Pay exactly when the payment type is "Pay" and Receive exactly when it is "Receive". Any other payment type is neither |
| Entry.SelectTable | ecs_cheques/ecs_cheques/doctype/multiple_cheque_entry/multiple_cheque_entry.js:202 | the hook works on `cheque_table_2` when the payment type is "Pay", and on `cheque_table` for every other payment type |
| Entry.ChildDoctype | ecs_cheques/ecs_cheques/doctype/multiple_cheque_entry/multiple_cheque_entry.js:297 | write-backs go to "Cheque Table Pay" exactly when the payment type is "Pay", and to "Cheque Table Receive" otherwise |
| Resolver.GetDocValue | ecs_cheques/ecs_cheques/doctype/multiple_cheque_entry/multiple_cheque_entry.js:64-79 | the read yields a record exactly when the name is non-empty and the store answers for it, and then it is that record. It never fails: a missing record and a failed call both give null |
| Resolver.BankAccountOf | ecs_cheques/ecs_cheques/doctype/multiple_cheque_entry/multiple_cheque_entry.js:129-134 | the bank-derived account is empty unless the document names a Bank Account the store holds. For such an account it is its `account`, or else its `account_name` |
| Resolver.BankCurrencyOf | ecs_cheques/ecs_cheques/doctype/multiple_cheque_entry/multiple_cheque_entry.js:129-135 | the bank currency is empty unless the named Bank Account is in the store, and is then that record's `currency` |
| Resolver.MopAccountOf | ecs_cheques/ecs_cheques/doctype/multiple_cheque_entry/multiple_cheque_entry.js:137-144 | the Mode of Payment account is empty unless the named Mode of Payment is in the store. It is then the first non-empty of its five account keys, or empty when none is set |
| Resolver.MopCurrencyOf | ecs_cheques/ecs_cheques/doctype/multiple_cheque_entry/multiple_cheque_entry.js:137-145 | the Mode of Payment currency is empty unless that record is in the store, and is then its `currency` |
| Resolver.PartyAccountOf | ecs_cheques/ecs_cheques/doctype/multiple_cheque_entry/multiple_cheque_entry.js:147-156 | the party account is empty unless both a party and a party type are set and the store holds that party. The party is read from "Customer" for customers and "Supplier" otherwise. The account is the first non-empty of its six account keys |
| Resolver.CompanyCurrencyOf | ecs_cheques/ecs_cheques/doctype/multiple_cheque_entry/multiple_cheque_entry.js:158-163 | the company currency is empty unless the named Company is in the store, and is then its `default_currency` |
| Resolver.AutoDetect | ecs_cheques/ecs_cheques/doctype/multiple_cheque_entry/multiple_cheque_entry.js:115-195 | no resolved value is ever empty text. With any override, each value is the first filled override field of its pair. Without one, the currency is the first of bank, Mode of Payment and company currency |
| Resolver.Lookups | ecs_cheques/ecs_cheques/doctype/multiple_cheque_entry/multiple_cheque_entry.js:129-163 | with an override no record is read. Otherwise at most four records are read, never under an empty name |
| Resolver.LookupsAreGuardedReads | ecs_cheques/ecs_cheques/doctype/multiple_cheque_entry/multiple_cheque_entry.js:129-163 | without overrides, each of the Bank Account, Mode of Payment, party and Company records is read exactly when its reference (for the party, both party and party type) is set |
| Resolver.ExplicitSkipsLookups | ecs_cheques/ecs_cheques/doctype/multiple_cheque_entry/multiple_cheque_entry.js:116-127 | with any override field filled, the resolver issues no read and its answer is the same for every store |
| Resolver.CurrencyOverrideAlone | ecs_cheques/ecs_cheques/doctype/multiple_cheque_entry/multiple_cheque_entry.js:116-127 | with only a currency override, no read is issued and both accounts are null, whatever the store holds. The currency is `account_currency`, else `currency` |
| Resolver.AutoDetectIgnoresTables | ecs_cheques/ecs_cheques/doctype/multiple_cheque_entry/multiple_cheque_entry.js:115-195 | the resolution does not depend on either cheque table |
| Resolver.AutoDetectReadsOnlyLookups | ecs_cheques/ecs_cheques/doctype/multiple_cheque_entry/multiple_cheque_entry.js:129-163 | the resolution depends on the store only through the records it reads, listed in order by `Lookups`: bank, Mode of Payment, party, company, each only when its reference is set |
| Resolver.Compose | ecs_cheques/ecs_cheques/doctype/multiple_cheque_entry/multiple_cheque_entry.js:165-192 | no account is ever empty text. The currency is the first of bank, Mode of Payment and company currency. After the final fallback, `paid_to` is null only if `paid_to`, `account` and `payable_account` are all empty, and `paid_from` only if `paid_from` and `account` are. The per-direction lists are in the three priority lemmas |
| Resolver.PayPriority | ecs_cheques/ecs_cheques/doctype/multiple_cheque_entry/multiple_cheque_entry.js:177-192 | when paying, the final fallback folds in. `paid_from` is the first of bank account, Mode of Payment account, `paid_from`, `account`. `paid_to` is the first of `payable_account`, party account, `paid_to`, `account` |
| Resolver.ReceivePriority | ecs_cheques/ecs_cheques/doctype/multiple_cheque_entry/multiple_cheque_entry.js:180-192 | when receiving, `paid_to` is the first of bank account, Mode of Payment account, `paid_to`, `account`, `payable_account`. `paid_from` is the first of party account, `paid_from`, `account` |
| Resolver.NeutralPriority | ecs_cheques/ecs_cheques/doctype/multiple_cheque_entry/multiple_cheque_entry.js:184-192 | for any other payment type, `paid_to` is the first of bank, Mode of Payment, `paid_to`, party, `account`, `payable_account`. `paid_from` is the first of `paid_from`, bank, Mode of Payment, `account` |
| Resolver.AutoDetectByDirection | ecs_cheques/ecs_cheques/doctype/multiple_cheque_entry/multiple_cheque_entry.js:165-192 | without an override, the resolver's accounts follow the priority list of the entry's direction, over what the reads found and the document's own fields |
| Resolver.DirectionSwap | ecs_cheques/ecs_cheques/doctype/multiple_cheque_entry/multiple_cheque_entry.js:176-183 | a bank-derived account pays out when paying and receives when receiving. Without a payable account on the document, the party account takes the other side |
| Resolver.NoAccountIff | ecs_cheques/ecs_cheques/doctype/multiple_cheque_entry/multiple_cheque_entry.js:115-195 | both accounts are null exactly when either (a) overrides are present but none of the four account override fields is filled, or (b) there are no overrides and every looked-up account and every legacy account field is empty, in every direction |
| Payload.BuildPaymentEntryPayload | ecs_cheques/ecs_cheques/doctype/multiple_cheque_entry/multiple_cheque_entry.js:91-112 | every destination alias equals the base's `paid_to` and every source alias its `paid_from`. Every currency alias is the given currency. Nothing outside the aliases changes |
| Payload.RowAmount | ecs_cheques/ecs_cheques/doctype/multiple_cheque_entry/multiple_cheque_entry.js:248-249 | the amount is `paid_amount` when set, else `amount`. It is 0 exactly when both are absent |
| Payload.BasePayload | ecs_cheques/ecs_cheques/doctype/multiple_cheque_entry/multiple_cheque_entry.js:231-256 | the base object carries no alias field and holds the resolved accounts and the row's amount twice. Its posting date is the entry's own when set, else the transaction date, else today. It links back to the batch through `reference_link`, which holds the entry's name. It copies the entry's payment type, party type, party, mode of payment and its type, cheque bank and bank account. It also copies the row's cheque type, reference number and date, first beneficiary, person and issuer names and cheque picture, each unchanged and absent when empty. At most one of `cheque_table_no` and `cheque_table_no2` is set |
| Payload.PaymentEntryFor | ecs_cheques/ecs_cheques/doctype/multiple_cheque_entry/multiple_cheque_entry.js:231-259 | both amounts are `paid_amount`, else `amount`, else 0. Every alias carries the resolved value. The row is named in `cheque_table_no` only when receiving and in `cheque_table_no2` only when paying |
| Batch.Unlinked | ecs_cheques/ecs_cheques/doctype/multiple_cheque_entry/multiple_cheque_entry.js:229-230 | the rows kept are exactly the table's rows without a `payment_entry` |
| Batch.UnlinkedAppend | ecs_cheques/ecs_cheques/doctype/multiple_cheque_entry/multiple_cheque_entry.js:228-262 | filtering keeps table order |
| Batch.UnlinkedEmptyIff | ecs_cheques/ecs_cheques/doctype/multiple_cheque_entry/multiple_cheque_entry.js:264-267 | nothing is left to plan exactly when every row has a Payment Entry |
| Batch.ChildName | ecs_cheques/ecs_cheques/doctype/multiple_cheque_entry/multiple_cheque_entry.js:298 | the write-back target is empty exactly when both payload row references and the row name are empty. Otherwise it is the first non-empty of `cheque_table_no`, `cheque_table_no2` and the row name, in that order |
| Batch.ChildNameIsRow | ecs_cheques/ecs_cheques/doctype/multiple_cheque_entry/multiple_cheque_entry.js:298 | in every direction, the row the write-back targets is the payload's own row |
| Batch.Plan | ecs_cheques/ecs_cheques/doctype/multiple_cheque_entry/multiple_cheque_entry.js:228-262 | there is one document per unlinked row of the selected table, in order. Each is built from its own row and the batch's resolved accounts, and links back to that row |
| Batch.PlanSharesResolvedAccounts | ecs_cheques/ecs_cheques/doctype/multiple_cheque_entry/multiple_cheque_entry.js:241-259 | all planned documents carry the same account and currency aliases, equal to the resolved values |
| Batch.FirstFailure | ecs_cheques/ecs_cheques/doctype/multiple_cheque_entry/multiple_cheque_entry.js:272-294 | every earlier answer is a successful submit and the answer at this position is not |
| Batch.RunChain | ecs_cheques/ecs_cheques/doctype/multiple_cheque_entry/multiple_cheque_entry.js:269-329 | the documents up to the first failing answer are submitted, in order, under their entry names. The chain fails exactly when some answer fails, with that answer's insert or submit error. The failing document is also sent to `frappe.client.insert`, but none after it is. The failure is tagged `SubmitError` when that document was inserted but not submitted, and `InsertError` when the insert itself was refused. There is one write-back step per submitted document |
| Batch.RunChainInsertsPlans | ecs_cheques/ecs_cheques/doctype/multiple_cheque_entry/multiple_cheque_entry.js:272-276 | the payloads sent for insertion are the planned ones, in order |
| Batch.RunChainWritesBack | ecs_cheques/ecs_cheques/doctype/multiple_cheque_entry/multiple_cheque_entry.js:296-313 | each submitted document gets one `set_value` onto its own row of the given child doctype with its entry name, or none when it names no row |
| Batch.OnSubmit | ecs_cheques/ecs_cheques/doctype/multiple_cheque_entry/multiple_cheque_entry.js:198-267 | "No Cheques" exactly when the selected table is empty. "Missing Account" exactly when rows exist but neither account resolves. "No new entries" exactly when accounts resolve but every row is linked. Otherwise the payloads of between one and all unlinked rows are sent for insertion |
| Links.ApplyLinks | ecs_cheques/ecs_cheques/doctype/multiple_cheque_entry/multiple_cheque_entry.js:296-300 | a row no successful write reaches is unchanged. A reached row takes the entry of the last write onto it. Only `payment_entry` ever changes |
| Links.AfterLinkBack | ecs_cheques/ecs_cheques/doctype/multiple_cheque_entry/multiple_cheque_entry.js:296-300 | only the two cheque tables can change, their lengths are kept, and a hook that stopped early changes nothing |
| Links.RunEffect | ecs_cheques/ecs_cheques/doctype/multiple_cheque_entry/multiple_cheque_entry.js:295-311 | a run writes once per submitted document onto its own unlinked row, in the selected table's doctype. The selected table receives those writes and the other table is untouched |
| Links.RunCounts | ecs_cheques/ecs_cheques/doctype/multiple_cheque_entry/multiple_cheque_entry.js:269-329 | the whole hook submits up to the first failing answer, fails with that answer's error, and sends one document more for insertion than it submits when it fails. The failure is tagged with the kind of the failing answer: `InsertError` or `SubmitError` |
| Links.RunPayloads | ecs_cheques/ecs_cheques/doctype/multiple_cheque_entry/multiple_cheque_entry.js:228-276 | the k-th payload sent for insertion is the Payment Entry built for the k-th unlinked row |
| Links.EveryEntryUsesResolvedAccounts | ecs_cheques/ecs_cheques/doctype/multiple_cheque_entry/multiple_cheque_entry.js:208-259 | every payload sent for insertion carries the batch's one resolved pair of accounts and its currency, under every alias |
| Links.RunWrites | ecs_cheques/ecs_cheques/doctype/multiple_cheque_entry/multiple_cheque_entry.js:295-313 | the run's write-back steps are those of its submitted documents, onto their own rows |
| Links.TablesAfterRun | ecs_cheques/ecs_cheques/doctype/multiple_cheque_entry/multiple_cheque_entry.js:297-300 | writes into the selected table's doctype change only the selected table |
| Links.OwnWriteOnly | ecs_cheques/ecs_cheques/doctype/multiple_cheque_entry/multiple_cheque_entry.js:297-300 | with distinct row names, the only write onto a planned row is its own |
| Links.LinkedRowsUntouched | ecs_cheques/ecs_cheques/doctype/multiple_cheque_entry/multiple_cheque_entry.js:229-230 | a row that already had a Payment Entry is exactly as it was after the run |
| Links.UnlinkedRowAfterRun | ecs_cheques/ecs_cheques/doctype/multiple_cheque_entry/multiple_cheque_entry.js:296-313 | an unlinked row ends up holding its submitted entry's name exactly when the row has a name, its document was submitted and the write succeeded. Otherwise it stays unchanged and unlinked |
| Links.FullRunLinksEveryRow | ecs_cheques/ecs_cheques/doctype/multiple_cheque_entry/multiple_cheque_entry.js:296-304 | after a run in which every submit and every write succeeded, every row of the selected table has a Payment Entry |
| Links.RerunCreatesNothing | ecs_cheques/ecs_cheques/doctype/multiple_cheque_entry/multiple_cheque_entry.js:264-267 | submitting again after such a run plans nothing and ends with "No new entries" |
| Scenarios.ReceiptResolves | ecs_cheques/ecs_cheques/doctype/multiple_cheque_entry/multiple_cheque_entry.js:129-182 | a receipt over a bank account resolves to that account as destination, no source, and the bank's currency |
| Scenarios.ReceiptPlansFirstCheque | ecs_cheques/ecs_cheques/doctype/multiple_cheque_entry/multiple_cheque_entry.js:228-262 | of two cheques the second of which is linked, only the first is planned |
| Scenarios.ReceiptCreatesOneEntry | ecs_cheques/ecs_cheques/doctype/multiple_cheque_entry/multiple_cheque_entry.js:228-313 | such a receipt sends exactly one payload, which is inserted and submitted, for the first cheque, without error |
| Scenarios.ReceiptPayload | ecs_cheques/ecs_cheques/doctype/multiple_cheque_entry/multiple_cheque_entry.js:231-259 | that entry names the bank's account under every destination alias and the bank's currency under every currency alias. It carries the cheque's amount twice and references the row through `cheque_table_no` only |
| Scenarios.ReceiptLinksBack | ecs_cheques/ecs_cheques/doctype/multiple_cheque_entry/multiple_cheque_entry.js:296-304 | afterwards the first cheque holds the new entry and the second keeps its old one |
| Scenarios.InsertFailureStopsChain | ecs_cheques/ecs_cheques/doctype/multiple_cheque_entry/multiple_cheque_entry.js:277-283 | with three cheques whose second insert fails, two payloads are sent for insertion, the first is submitted and the second is refused, and the batch fails with the insert error |
| Scenarios.InsertFailureLeavesRest | ecs_cheques/ecs_cheques/doctype/multiple_cheque_entry/multiple_cheque_entry.js:272-329 | after that failure only the first cheque is linked. The second and third stay unlinked |
| Beneficiary.StampNames | ecs_cheques/ecs_cheques/doctype/multiple_cheque_entry/multiple_cheque_entry.js:343-346 | every row gets the given person and issuer names and keeps every other field |
| Beneficiary.FillPayBeneficiaries | ecs_cheques/ecs_cheques/doctype/multiple_cheque_entry/multiple_cheque_entry.js:342-348 | on `cheque_table_2` only, each row's person is the party name and its issuer is the company |
| Beneficiary.FillReceiveBeneficiaries | ecs_cheques/ecs_cheques/doctype/multiple_cheque_entry/multiple_cheque_entry.js:350-356 | on `cheque_table` only, each row's person is the company and its issuer is the party name |
| Beneficiary.StampNamesIdempotent | ecs_cheques/ecs_cheques/doctype/multiple_cheque_entry/multiple_cheque_entry.js:343-346 | stamping twice is the same as stamping once |
| Beneficiary.FillIdempotentAndCommuting | ecs_cheques/ecs_cheques/doctype/multiple_cheque_entry/multiple_cheque_entry.js:342-356 | firing either hook again changes nothing, and the two hooks commute |
| Beneficiary.FillRolesMirror | ecs_cheques/ecs_cheques/doctype/multiple_cheque_entry/multiple_cheque_entry.js:342-356 | the pay table's person is the receive table's issuer and the other way round |

## Left out

- The promise and RPC plumbing (`frappe.call`, `async`/`await`) is replaced by the store map and the `Remote` answers, and the strict one-at-a-time order is taken as given. An insert call that errors and an insert that returns no document are the same `InsertFails` answer. The same holds for submits.
- The `catch` around the account detection (lines 213-216) is left out. `getDocValue` never rejects, so the detection never throws and that branch cannot be reached in this model.
- The `fieldname` projection of `frappe.client.get_value` is left out. A record holds whatever fields it holds.
- User messages (`frappe.msgprint`), console logging, `refresh_field` and `frm.reload_doc` are left out. The hook's `Outcome` and `Report` record which message path was taken.
- The final "success"/"error" message of the chain is read off `Report.failure` rather than modelled.
- `frappe.datetime.get_today()` is the parameter `today`.
- The field-clearing handlers, the `set_query` filters and `validate` (lines 1-61) are outside the modelled core.
- The party-name fetch and the other files of the app are outside the modelled core.
- The server-side validation of a Payment Entry is outside the model. The store's verdict is the `Remote` answer.
- JavaScript truthiness and numbers: amounts are natural numbers with 0 read as absent. Negative or fractional amounts and non-string field values are not modelled.
- A payload field that is `undefined` and one that is `null` are the same `Absent`, since the insert call treats both as missing.
- Concurrency is not modelled: no second submit of the same document can overlap a running chain.

=== FILE: batch.dfy ===
/** The submit hook of "Multiple Cheque Entry" (multiple_cheque_entry.js
    lines 198-339): pick the cheque table for the direction, resolve the
    accounts once, plan one Payment Entry per row that has none yet, then
    insert, submit and link back each of them strictly one after another.

    The store's answers to the insert, submit and link-back calls are an
    input: one `Remote` per planned row, in planning order.
 */
module Batch {
  import opened Values
  import opened Entry
  import opened Resolver
  import opened Payload

  /* ---------------- planning ---------------- */

  /** Rows with no `payment_entry` yet, in table order. */
  function Unlinked(rows: seq<ChequeRow>): (u: seq<ChequeRow>)
    ensures |u| <= |rows|
    ensures forall r :: r in u <==> r in rows && r.paymentEntry == ""
    decreases |rows|
  {
    if |rows| == 0 then []
    else (if rows[0].paymentEntry == "" then [rows[0]] else []) + Unlinked(rows[1..])
  }

  /** Filtering keeps table order: the unlinked rows of a concatenation are
      those of the first part followed by those of the second. */
  lemma {:induction false} UnlinkedAppend(a: seq<ChequeRow>, b: seq<ChequeRow>)
    ensures Unlinked(a + b) == Unlinked(a) + Unlinked(b)
    decreases |a|
  {
    if |a| == 0 {
      assert a + b == b;
    } else {
      assert (a + b)[0] == a[0];
      assert (a + b)[1..] == a[1..] + b;
      UnlinkedAppend(a[1..], b);
    }
  }

  /** Every row is linked exactly when no row is left to plan. */
  lemma UnlinkedEmptyIff(rows: seq<ChequeRow>)
    ensures Unlinked(rows) == [] <==> forall i :: 0 <= i < |rows| ==> rows[i].paymentEntry != ""
  {
    if Unlinked(rows) != [] {
      assert Unlinked(rows)[0] in Unlinked(rows);
    } else {
      forall i | 0 <= i < |rows| ensures rows[i].paymentEntry != "" {
        assert rows[i] in rows;
      }
    }
  }

  /** Distinct row names stay distinct among the unlinked rows. */
  lemma {:induction false} UnlinkedUniqueNames(rows: seq<ChequeRow>)
    requires UniqueNames(rows)
    ensures UniqueNames(Unlinked(rows))
    decreases |rows|
  {
    if |rows| > 0 {
      var tail := rows[1..];
      assert UniqueNames(tail) by {
        forall i, j | 0 <= i < |tail| && 0 <= j < |tail| && tail[i].name == tail[j].name
          ensures i == j
        {
          assert rows[i + 1].name == rows[j + 1].name;
        }
      }
      UnlinkedUniqueNames(tail);
      var u := Unlinked(rows);
      var ut := Unlinked(tail);
      if rows[0].paymentEntry == "" {
        assert u == [rows[0]] + ut;
        forall k | 0 <= k < |ut| ensures ut[k].name != rows[0].name {
          assert ut[k] in tail;
          var t :| 0 <= t < |tail| && tail[t] == ut[k];
          assert rows[t + 1] == ut[k];
        }
        assert forall k :: 0 < k < |u| ==> u[k] == ut[k - 1];
      } else {
        assert u == ut;
      }
    }
  }

  /** One document to create: its payload and the name of its row. */
  datatype Planned = Planned(payload: Payload, childRowName: string)

  /** `d.payload.cheque_table_no || d.payload.cheque_table_no2 || d.child_row_name`:
      the row the link-back writes to. */
  function ChildName(p: Planned): (c: string)
    ensures c == "" <==>
      TextOf(p.payload.chequeTableNo) == "" && TextOf(p.payload.chequeTableNo2) == "" && p.childRowName == ""
    ensures IsFirstPresent(Present(c), [TextOf(p.payload.chequeTableNo), TextOf(p.payload.chequeTableNo2), p.childRowName])
  {
    var names := [TextOf(p.payload.chequeTableNo), TextOf(p.payload.chequeTableNo2), p.childRowName];
    FirstPresentIn(FirstPresent(names), names);
    FirstPresentNone(FirstPresent(names), names);
    assert names[0] in names && names[1] in names && names[2] in names;
    OrEmpty(FirstPresent(names))
  }

  /** Whatever the direction, the link-back targets the payload's own row. */
  lemma ChildNameIsRow(doc: ChequeEntry, row: ChequeRow, r: Resolved, today: string)
    ensures ChildName(Planned(PaymentEntryFor(doc, row, r, today), row.name)) == row.name
  {
    var p := PaymentEntryFor(doc, row, r, today);
    var c := [TextOf(p.chequeTableNo), TextOf(p.chequeTableNo2), row.name];
    assert c[0] == "" || c[0] == row.name;
    assert c[1] == "" || c[1] == row.name;
    if row.name == "" {
      FirstPresentNone(FirstPresent(c), c);
    } else if c[0] != "" {
      FirstPresentAt(FirstPresent(c), c, 0);
    } else if c[1] != "" {
      FirstPresentAt(FirstPresent(c), c, 1);
    } else {
      FirstPresentAt(FirstPresent(c), c, 2);
    }
  }

  /** The documents to create: one per unlinked row of the selected table,
      in table order, each built from its own row and the one resolved
      account pair, each linking back to its own row. */
  function Plan(doc: ChequeEntry, r: Resolved, today: string): (plans: seq<Planned>)
    ensures |plans| == |Unlinked(SelectTable(doc))|
    ensures forall i :: 0 <= i < |plans| ==>
      var row := Unlinked(SelectTable(doc))[i];
      && row in SelectTable(doc) && row.paymentEntry == ""
      && plans[i].payload == PaymentEntryFor(doc, row, r, today)
      && ChildName(plans[i]) == row.name
  {
    var u := Unlinked(SelectTable(doc));
    assert forall i :: 0 <= i < |u| ==> u[i] in u;
    assert forall row :: ChildName(Planned(PaymentEntryFor(doc, row, r, today), row.name)) == row.name by {
      forall row { ChildNameIsRow(doc, row, r, today); }
    }
    seq(|u|, i requires 0 <= i < |u| => Planned(PaymentEntryFor(doc, u[i], r, today), u[i].name))
  }

  /** Every planned document carries the same resolved accounts and
      currency under every alias. */
  lemma PlanSharesResolvedAccounts(doc: ChequeEntry, r: Resolved, today: string, i: nat, j: nat)
    requires i < |Plan(doc, r, today)| && j < |Plan(doc, r, today)|
    ensures var plans := Plan(doc, r, today);
      && PaidToFields(plans[i].payload) == PaidToFields(plans[j].payload)
      && PaidFromFields(plans[i].payload) == PaidFromFields(plans[j].payload)
      && CurrencyFields(plans[i].payload) == CurrencyFields(plans[j].payload)
      && plans[i].payload.paidTo == OptField(r.paidTo)
      && plans[i].payload.paidFrom == OptField(r.paidFrom)
  {
    var plans := Plan(doc, r, today);
    var a, b := plans[i].payload, plans[j].payload;
    assert a.paidTo in PaidToFields(a) && a.paidFrom in PaidFromFields(a);
    assert forall k :: 0 <= k < 4 ==> PaidToFields(a)[k] in PaidToFields(a) && PaidToFields(b)[k] in PaidToFields(b);
    assert forall k :: 0 <= k < 4 ==> PaidFromFields(a)[k] in PaidFromFields(a) && PaidFromFields(b)[k] in PaidFromFields(b);
    assert forall k :: 0 <= k < 5 ==> CurrencyFields(a)[k] in CurrencyFields(a) && CurrencyFields(b)[k] in CurrencyFields(b);
  }

  /* ---------------- the insert, submit, link-back chain ---------------- */

  /** The store's answer for one planned document. */
  datatype Remote =
    | InsertFails(error: string)               // the insert returned no document or errored
    | SubmitFails(error: string)               // inserted, but the submit returned nothing or errored
    | Submitted(entry: string, linkOk: bool)   // inserted and submitted as `entry`; whether the
                                               // write of `payment_entry` onto the row succeeded

  /** Why the chain was rejected. A submit error leaves an inserted but
      unsubmitted Payment Entry behind, unlike an insert error. */
  datatype ChainError = InsertError(error: string) | SubmitError(error: string)

  /** The link-back step of one submitted document: skipped when it names
      no row, else one `frappe.db.set_value(childDoctype, childName,
      "payment_entry", entry)` that succeeded or not. */
  datatype LinkBack = NoChildName | Write(childDoctype: string, childName: string, entry: string, ok: bool)

  /** What a run did: the payloads it sent to `frappe.client.insert`
      (the last of them refused when the chain failed on an insert), the
      names of the entries it submitted (the `results` list), the link-back step of each submitted
      entry and the error that rejected the chain, if any. */
  datatype Report = Report(
    sent: seq<Payload>,
    submitted: seq<string>,
    linkBacks: seq<LinkBack>,
    failure: Option<ChainError>
  )

  /** Reference for where a run stops: the position of the first answer
      that is not a successful submit, or the number of answers. */
  function FirstFailure(answers: seq<Remote>): (k: nat)
    ensures k <= |answers|
    ensures forall i :: 0 <= i < k ==> answers[i].Submitted?
    ensures k < |answers| ==> !answers[k].Submitted?
    decreases |answers|
  {
    if |answers| == 0 || !answers[0].Submitted? then 0
    else 1 + FirstFailure(answers[1..])
  }

  /** The promise chain: each document is inserted, then submitted, then
      linked back, and only then does the next one start. An insert or
      submit failure rejects the chain, so no later document is sent; a
      failed link-back write still counts the row as done. */
  function RunChain(plans: seq<Planned>, answers: seq<Remote>, childDoctype: string): (r: Report)
    requires |answers| == |plans|
    ensures |r.submitted| == FirstFailure(answers)
    ensures forall i :: 0 <= i < |r.submitted| ==> r.submitted[i] == answers[i].entry
    ensures r.failure.None? <==> |r.submitted| == |plans|
    ensures r.failure.Some? ==>
      var k := |r.submitted|;
      || (answers[k].InsertFails? && r.failure.value == InsertError(answers[k].error))
      || (answers[k].SubmitFails? && r.failure.value == SubmitError(answers[k].error))
    ensures |r.sent| == if r.failure.None? then |plans| else |r.submitted| + 1
    ensures |r.linkBacks| == |r.submitted|
    decreases |plans|
  {
    if |plans| == 0 then Report([], [], [], None)
    else
      var p := plans[0];
      match answers[0]
      case InsertFails(e) => Report([p.payload], [], [], Some(InsertError(e)))
      case SubmitFails(e) => Report([p.payload], [], [], Some(SubmitError(e)))
      case Submitted(entry, ok) =>
        var rest := RunChain(plans[1..], answers[1..], childDoctype);
        var child := ChildName(p);
        var link := if child != "" then Write(childDoctype, child, entry, ok) else NoChildName;
        Report([p.payload] + rest.sent, [entry] + rest.submitted, [link] + rest.linkBacks, rest.failure)
  }

  /** A run sends the planned payloads for insertion, in order. */
  lemma {:induction false} RunChainInsertsPlans(plans: seq<Planned>, answers: seq<Remote>, childDoctype: string)
    requires |answers| == |plans|
    ensures var r := RunChain(plans, answers, childDoctype);
      forall i :: 0 <= i < |r.sent| ==> r.sent[i] == plans[i].payload
    decreases |plans|
  {
    if |plans| > 0 && answers[0].Submitted? {
      RunChainInsertsPlans(plans[1..], answers[1..], childDoctype);
      var r := RunChain(plans, answers, childDoctype);
      var rest := RunChain(plans[1..], answers[1..], childDoctype);
      assert r.sent == [plans[0].payload] + rest.sent;
    }
  }

  /** A run writes back onto each submitted document's own row, in order,
      when the document names one, recording whether the write succeeded. */
  lemma {:induction false} RunChainWritesBack(plans: seq<Planned>, answers: seq<Remote>, childDoctype: string)
    requires |answers| == |plans|
    ensures var r := RunChain(plans, answers, childDoctype);
      forall i :: 0 <= i < |r.linkBacks| ==>
        r.linkBacks[i] == if ChildName(plans[i]) == "" then NoChildName
                          else Write(childDoctype, ChildName(plans[i]), answers[i].entry, answers[i].linkOk)
    decreases |plans|
  {
    if |plans| > 0 && answers[0].Submitted? {
      RunChainWritesBack(plans[1..], answers[1..], childDoctype);
      var r := RunChain(plans, answers, childDoctype);
      var rest := RunChain(plans[1..], answers[1..], childDoctype);
      var child := ChildName(plans[0]);
      assert r.linkBacks ==
        [if child != "" then Write(childDoctype, child, answers[0].entry, answers[0].linkOk) else NoChildName] + rest.linkBacks;
    }
  }

  /** What the submit hook ends with. */
  datatype Outcome =
    | NoCheques        // the selected table is empty
    | MissingAccount   // neither account could be resolved
    | NoNewEntries     // every row already has a Payment Entry
    | Ran(report: Report)

  /** The submit hook. It stops before any write when the table is empty,
      when no account was found, or when every row is already linked;
      otherwise it runs the chain over the planned documents. `today` is
      the date the host supplies when the entry has none. */
  function OnSubmit(doc: ChequeEntry, store: Store, today: string, answers: seq<Remote>): (o: Outcome)
    requires |answers| == |Unlinked(SelectTable(doc))|
    ensures o == NoCheques <==> |SelectTable(doc)| == 0
    ensures o == MissingAccount <==>
      |SelectTable(doc)| > 0 && AutoDetect(doc, store).paidTo.None? && AutoDetect(doc, store).paidFrom.None?
    ensures o == NoNewEntries <==>
      |SelectTable(doc)| > 0 && (AutoDetect(doc, store).paidTo.Some? || AutoDetect(doc, store).paidFrom.Some?) &&
      |Unlinked(SelectTable(doc))| == 0
    ensures o.Ran? ==> 1 <= |o.report.sent| <= |Unlinked(SelectTable(doc))|
  {
    var table := SelectTable(doc);
    if |table| == 0 then NoCheques
    else
      var resolved := AutoDetect(doc, store);
      if resolved.paidTo.None? && resolved.paidFrom.None? then MissingAccount
      else
        var plans := Plan(doc, resolved, today);
        if |plans| == 0 then NoNewEntries
        else
          Ran(RunChain(plans, answers, ChildDoctype(doc)))
  }
}

=== FILE: beneficiary.dfy ===
/** The first-beneficiary autofill (multiple_cheque_entry.js lines
    342-356): editing `first_beneficiary` on a cheque row stamps the
    counter-party and the company onto every row of that row's table, in
    the roles the direction gives them.
 */
module Beneficiary {
  import opened Entry

  /** Two rows agree on everything but the person and issuer names. */
  predicate SameButNames(a: ChequeRow, b: ChequeRow) {
    a.(personName := "", issuerName := "") == b.(personName := "", issuerName := "")
  }

  /** Every row gets the given person and issuer names and keeps the rest. */
  function StampNames(rows: seq<ChequeRow>, person: string, issuer: string): (out: seq<ChequeRow>)
    ensures |out| == |rows|
    ensures forall i :: 0 <= i < |rows| ==>
      out[i].personName == person && out[i].issuerName == issuer && SameButNames(out[i], rows[i])
  {
    seq(|rows|, i requires 0 <= i < |rows| => rows[i].(personName := person, issuerName := issuer))
  }

  /** "Cheque Table Pay": the cheque is written to the party and issued by
      the company, on every row of `cheque_table_2`. */
  function FillPayBeneficiaries(doc: ChequeEntry): (d: ChequeEntry)
    ensures d == doc.(chequeTable2 := d.chequeTable2)
    ensures |d.chequeTable2| == |doc.chequeTable2|
    ensures forall i :: 0 <= i < |d.chequeTable2| ==>
      && d.chequeTable2[i].personName == doc.partyName
      && d.chequeTable2[i].issuerName == doc.company
      && SameButNames(d.chequeTable2[i], doc.chequeTable2[i])
  {
    doc.(chequeTable2 := StampNames(doc.chequeTable2, doc.partyName, doc.company))
  }

  /** "Cheque Table Receive": the roles swap; the cheque is written to the
      company and issued by the party, on every row of `cheque_table`. */
  function FillReceiveBeneficiaries(doc: ChequeEntry): (d: ChequeEntry)
    ensures d == doc.(chequeTable := d.chequeTable)
    ensures |d.chequeTable| == |doc.chequeTable|
    ensures forall i :: 0 <= i < |d.chequeTable| ==>
      && d.chequeTable[i].personName == doc.company
      && d.chequeTable[i].issuerName == doc.partyName
      && SameButNames(d.chequeTable[i], doc.chequeTable[i])
  {
    doc.(chequeTable := StampNames(doc.chequeTable, doc.company, doc.partyName))
  }

  /** Stamping twice is stamping once. */
  lemma {:induction false} StampNamesIdempotent(rows: seq<ChequeRow>, person: string, issuer: string)
    ensures StampNames(StampNames(rows, person, issuer), person, issuer) == StampNames(rows, person, issuer)
  {
    var once := StampNames(rows, person, issuer);
    var twice := StampNames(once, person, issuer);
    forall i | 0 <= i < |rows| ensures twice[i] == once[i] {
      assert SameButNames(twice[i], once[i]);
    }
  }

  /** Firing either hook again changes nothing, and the two hooks commute,
      since each writes only its own table and reads neither. */
  lemma FillIdempotentAndCommuting(doc: ChequeEntry)
    ensures FillPayBeneficiaries(FillPayBeneficiaries(doc)) == FillPayBeneficiaries(doc)
    ensures FillReceiveBeneficiaries(FillReceiveBeneficiaries(doc)) == FillReceiveBeneficiaries(doc)
    ensures FillPayBeneficiaries(FillReceiveBeneficiaries(doc)) == FillReceiveBeneficiaries(FillPayBeneficiaries(doc))
  {
    StampNamesIdempotent(doc.chequeTable2, doc.partyName, doc.company);
    StampNamesIdempotent(doc.chequeTable, doc.company, doc.partyName);
  }

  /** The two tables mirror each other: a cheque the company pays out names
      the party as its person and the company as issuer, a cheque it
      receives the other way round. */
  lemma FillRolesMirror(doc: ChequeEntry, i: nat, j: nat)
    requires i < |doc.chequeTable2| && j < |doc.chequeTable|
    ensures FillPayBeneficiaries(doc).chequeTable2[i].personName == FillReceiveBeneficiaries(doc).chequeTable[j].issuerName
    ensures FillPayBeneficiaries(doc).chequeTable2[i].issuerName == FillReceiveBeneficiaries(doc).chequeTable[j].personName
  {
  }
}

=== FILE: entry.dfy ===
/** The "Multiple Cheque Entry" document and its cheque rows.

    Field names follow the document's own field names in camel case
    (`account_paid_to` becomes `accountPaidTo`). Text fields use the ""
    convention of module Values; amounts are natural numbers with 0 read
    as absent.
 */
module Entry {

  /** One row of a cheque table ("Cheque Table Pay" / "Cheque Table Receive"). */
  datatype ChequeRow = ChequeRow(
    name: string,            // the child row's own document name
    paymentEntry: string,    // back-reference to the generated Payment Entry
    paidAmount: nat,
    amount: nat,
    chequeType: string,
    referenceNo: string,
    referenceDate: string,
    firstBeneficiary: string,
    personName: string,
    issuerName: string,
    pictureOfCheck: string
  )

  /** The cheque-batch document. */
  datatype ChequeEntry = ChequeEntry(
    name: string,
    paymentType: string,           // "Pay", "Receive" or anything else
    postingDate: string,
    transactionDate: string,
    // explicit override fields
    accountPaidTo: string,
    accountPaid: string,
    accountPaidFrom: string,
    accountFrom: string,
    accountCurrency: string,
    currency: string,
    // references that drive the lookups
    bankAcc: string,
    modeOfPayment: string,
    modeOfPaymentType: string,
    party: string,
    partyType: string,
    partyName: string,
    company: string,
    chequeBank: string,
    // legacy account fields
    paidFrom: string,
    paidTo: string,
    account: string,
    payableAccount: string,
    // the two cheque tables
    chequeTable: seq<ChequeRow>,     // used unless the entry pays
    chequeTable2: seq<ChequeRow>     // used when the entry pays
  )

  datatype Direction = Pay | Receive | Neutral

  /** `isPay` / `isReceive` of the submit hook: any other payment type is neutral. */
  function DirectionOf(doc: ChequeEntry): (d: Direction)
    ensures d == Pay <==> doc.paymentType == "Pay"
    ensures d == Receive <==> doc.paymentType == "Receive"
  {
    if doc.paymentType == "Pay" then Pay
    else if doc.paymentType == "Receive" then Receive
    else Neutral
  }

  /** The cheque table the submit hook works on. */
  function SelectTable(doc: ChequeEntry): (t: seq<ChequeRow>)
    ensures doc.paymentType == "Pay" ==> t == doc.chequeTable2
    ensures doc.paymentType != "Pay" ==> t == doc.chequeTable
  {
    if DirectionOf(doc) == Pay then doc.chequeTable2 else doc.chequeTable
  }

  /** The cheque table the submit hook leaves alone. */
  function OtherTable(doc: ChequeEntry): seq<ChequeRow> {
    if DirectionOf(doc) == Pay then doc.chequeTable else doc.chequeTable2
  }

  /** Child doctype the link-back writes into: it names the selected table. */
  function ChildDoctype(doc: ChequeEntry): (c: string)
    ensures c == "Cheque Table Pay" <==> doc.paymentType == "Pay"
    ensures c == "Cheque Table Pay" || c == "Cheque Table Receive"
  {
    if DirectionOf(doc) == Pay then "Cheque Table Pay" else "Cheque Table Receive"
  }

  /** Row names identify rows: no two positions of a table share a name. */
  ghost predicate UniqueNames(rows: seq<ChequeRow>) {
    forall i, j :: 0 <= i < |rows| && 0 <= j < |rows| && rows[i].name == rows[j].name ==> i == j
  }
}

=== FILE: linkback.dfy ===
/** The effect of the link-back writes on the cheque tables
    (multiple_cheque_entry.js lines 295-311): each successful
    `frappe.db.set_value(childDoctype, childName, "payment_entry", entry)`
    stores the entry's name on the row of that doctype and name.
 */
module Links {
  import opened Values
  import opened Entry
  import opened Resolver
  import opened Payload
  import opened Batch

  /** `l` is a successful write of `payment_entry` onto the row `doctype`/`name`. */
  predicate Writes(l: LinkBack, doctype: string, name: string) {
    l.Write? && l.ok && l.childDoctype == doctype && l.childName == name
  }

  /** Position `k` holds the last successful write onto `doctype`/`name`. */
  ghost predicate LastWriteAt(links: seq<LinkBack>, k: int, doctype: string, name: string) {
    && 0 <= k < |links|
    && Writes(links[k], doctype, name)
    && forall j :: k < j < |links| ==> !Writes(links[j], doctype, name)
  }

  /** The value a sequence of writes leaves on the row `doctype`/`name`:
      that of the last successful one, or none when no write succeeded. */
  function LastWrite(links: seq<LinkBack>, doctype: string, name: string): (e: Option<string>)
    ensures e.None? <==> forall k :: 0 <= k < |links| ==> !Writes(links[k], doctype, name)
    ensures e.Some? ==> exists k :: LastWriteAt(links, k, doctype, name) && e.value == links[k].entry
    decreases |links|
  {
    if |links| == 0 then None
    else
      var last := links[|links| - 1];
      if Writes(last, doctype, name) then Some(last.entry)
      else
        var e := LastWrite(links[..|links| - 1], doctype, name);
        assert e.Some? ==> exists k :: LastWriteAt(links, k, doctype, name) && e.value == links[k].entry by {
          if e.Some? {
            var k :| LastWriteAt(links[..|links| - 1], k, doctype, name) && e.value == links[..|links| - 1][k].entry;
            assert LastWriteAt(links, k, doctype, name);
          }
        }
        e
  }

  /** The rows of one child table after the writes: a row no write reached
      is unchanged; a reached row takes the entry of the last write onto
      it, and nothing but its `payment_entry` changes. */
  function ApplyLinks(rows: seq<ChequeRow>, links: seq<LinkBack>, doctype: string): (out: seq<ChequeRow>)
    ensures |out| == |rows|
    ensures forall i :: 0 <= i < |rows| ==> out[i] == rows[i].(paymentEntry := out[i].paymentEntry)
    ensures forall i :: 0 <= i < |rows| && (forall k :: 0 <= k < |links| ==> !Writes(links[k], doctype, rows[i].name)) ==>
      out[i] == rows[i]
    ensures forall i, k :: 0 <= i < |rows| && LastWriteAt(links, k, doctype, rows[i].name) ==>
      out[i].paymentEntry == links[k].entry
  {
    seq(|rows|, i requires 0 <= i < |rows| =>
      match LastWrite(links, doctype, rows[i].name)
      case None => rows[i]
      case Some(e) => rows[i].(paymentEntry := e))
  }

  /** The document once the writes of a run have landed: writes name the
      "Cheque Table Receive" rows of `cheque_table` and the
      "Cheque Table Pay" rows of `cheque_table_2`. */
  function AfterLinkBack(doc: ChequeEntry, o: Outcome): (d: ChequeEntry)
    ensures d == doc.(chequeTable := d.chequeTable, chequeTable2 := d.chequeTable2)
    ensures |d.chequeTable| == |doc.chequeTable| && |d.chequeTable2| == |doc.chequeTable2|
    ensures !o.Ran? ==> d == doc
  {
    if o.Ran? then
      doc.(chequeTable := ApplyLinks(doc.chequeTable, o.report.linkBacks, "Cheque Table Receive"),
           chequeTable2 := ApplyLinks(doc.chequeTable2, o.report.linkBacks, "Cheque Table Pay"))
    else doc
  }

  /** The writes a run issues for the planned rows `u`: one per submitted
      row, in order, onto that row when it has a name. */
  ghost predicate WritesFor(links: seq<LinkBack>, u: seq<ChequeRow>, answers: seq<Remote>, childDoctype: string) {
    && |links| <= |u|
    && |links| <= |answers|
    && forall i :: 0 <= i < |links| ==>
         && answers[i].Submitted?
         && links[i] == if u[i].name == "" then NoChildName
                        else Write(childDoctype, u[i].name, answers[i].entry, answers[i].linkOk)
  }

  /** What a run of the submit hook wrote: for each submitted document, in
      order, a write onto its own row when that row has a name, all into
      the selected table's doctype; so the selected table ends up with those
      writes applied and the other table is untouched. */
  lemma RunEffect(doc: ChequeEntry, store: Store, today: string, answers: seq<Remote>)
    requires |answers| == |Unlinked(SelectTable(doc))|
    requires OnSubmit(doc, store, today, answers).Ran?
    ensures var o := OnSubmit(doc, store, today, answers);
      && |o.report.linkBacks| == |o.report.submitted|
      && WritesFor(o.report.linkBacks, Unlinked(SelectTable(doc)), answers, ChildDoctype(doc))
      && DirectionOf(AfterLinkBack(doc, o)) == DirectionOf(doc)
      && SelectTable(AfterLinkBack(doc, o)) == ApplyLinks(SelectTable(doc), o.report.linkBacks, ChildDoctype(doc))
      && OtherTable(AfterLinkBack(doc, o)) == OtherTable(doc)
  {
    var o := OnSubmit(doc, store, today, answers);
    RunWrites(doc, store, today, answers);
    TablesAfterRun(doc, o.report.linkBacks, o);
  }

  /** How far a run got, read off the chain: it submits every document up
      to the first failing answer, sends that one for insertion too when
      there is one, and fails with that answer's error: `InsertError` when
      the store refused the insert, `SubmitError` when it accepted the
      insert but refused the submit. */
  lemma RunCounts(doc: ChequeEntry, store: Store, today: string, answers: seq<Remote>)
    requires |answers| == |Unlinked(SelectTable(doc))|
    requires OnSubmit(doc, store, today, answers).Ran?
    ensures var o := OnSubmit(doc, store, today, answers);
      && |o.report.submitted| == FirstFailure(answers)
      && (forall i :: 0 <= i < |o.report.submitted| ==> o.report.submitted[i] == answers[i].entry)
      && (o.report.failure.None? <==> |o.report.submitted| == |answers|)
      && (o.report.failure.Some? ==>
            var k := |o.report.submitted|;
            || (answers[k].InsertFails? && o.report.failure.value == InsertError(answers[k].error))
            || (answers[k].SubmitFails? && o.report.failure.value == SubmitError(answers[k].error)))
      && |o.report.sent| == (if o.report.failure.None? then |answers| else |o.report.submitted| + 1)
  {
    var plans := Plan(doc, AutoDetect(doc, store), today);
    assert OnSubmit(doc, store, today, answers).report == RunChain(plans, answers, ChildDoctype(doc));
  }

  /** What a run sends for insertion: the payloads of the unlinked rows, in table order. */
  lemma RunPayloads(doc: ChequeEntry, store: Store, today: string, answers: seq<Remote>)
    requires |answers| == |Unlinked(SelectTable(doc))|
    requires OnSubmit(doc, store, today, answers).Ran?
    ensures var o := OnSubmit(doc, store, today, answers);
      && |o.report.sent| <= |Unlinked(SelectTable(doc))|
      && forall i :: 0 <= i < |o.report.sent| ==>
           o.report.sent[i] == PaymentEntryFor(doc, Unlinked(SelectTable(doc))[i], AutoDetect(doc, store), today)
  {
    var plans := Plan(doc, AutoDetect(doc, store), today);
    assert OnSubmit(doc, store, today, answers).report == RunChain(plans, answers, ChildDoctype(doc));
    RunChainInsertsPlans(plans, answers, ChildDoctype(doc));
  }

  /** Every document a run sends for insertion carries the one pair of accounts resolved
      for the batch, under every alias. */
  lemma EveryEntryUsesResolvedAccounts(doc: ChequeEntry, store: Store, today: string, answers: seq<Remote>)
    requires |answers| == |Unlinked(SelectTable(doc))|
    requires OnSubmit(doc, store, today, answers).Ran?
    ensures var r := AutoDetect(doc, store);
      forall p :: p in OnSubmit(doc, store, today, answers).report.sent ==>
        && (forall f :: f in PaidToFields(p) ==> f == OptField(r.paidTo))
        && (forall f :: f in PaidFromFields(p) ==> f == OptField(r.paidFrom))
        && (forall f :: f in CurrencyFields(p) ==> f == OptField(r.currency))
  {
    RunPayloads(doc, store, today, answers);
  }

  /** What a run writes back: one write per submitted document, onto its row. */
  lemma RunWrites(doc: ChequeEntry, store: Store, today: string, answers: seq<Remote>)
    requires |answers| == |Unlinked(SelectTable(doc))|
    requires OnSubmit(doc, store, today, answers).Ran?
    ensures var o := OnSubmit(doc, store, today, answers);
      && |o.report.linkBacks| == |o.report.submitted|
      && WritesFor(o.report.linkBacks, Unlinked(SelectTable(doc)), answers, ChildDoctype(doc))
  {
    var plans := Plan(doc, AutoDetect(doc, store), today);
    assert OnSubmit(doc, store, today, answers).report == RunChain(plans, answers, ChildDoctype(doc));
    RunChainWritesBack(plans, answers, ChildDoctype(doc));
  }

  /** Writes into the selected table's doctype change only that table. */
  lemma TablesAfterRun(doc: ChequeEntry, links: seq<LinkBack>, o: Outcome)
    requires o.Ran? && o.report.linkBacks == links
    requires forall k :: 0 <= k < |links| ==> links[k].Write? ==> links[k].childDoctype == ChildDoctype(doc)
    ensures DirectionOf(AfterLinkBack(doc, o)) == DirectionOf(doc)
    ensures SelectTable(AfterLinkBack(doc, o)) == ApplyLinks(SelectTable(doc), links, ChildDoctype(doc))
    ensures OtherTable(AfterLinkBack(doc, o)) == OtherTable(doc)
  {
    var other := if DirectionOf(doc) == Pay then "Cheque Table Receive" else "Cheque Table Pay";
    assert other != ChildDoctype(doc);
    var t := OtherTable(doc);
    var out := ApplyLinks(t, links, other);
    forall i | 0 <= i < |t| ensures out[i] == t[i] {
      assert forall k :: 0 <= k < |links| ==> !Writes(links[k], other, t[i].name);
    }
  }

  /** With distinct row names, the only write onto a planned row is its own:
      it is the last write onto that row when it succeeded, and otherwise
      no write reaches the row at all. */
  lemma OwnWriteOnly(links: seq<LinkBack>, u: seq<ChequeRow>, answers: seq<Remote>, childDoctype: string, i: nat)
    requires WritesFor(links, u, answers, childDoctype)
    requires UniqueNames(u)
    requires i < |u|
    ensures u[i].name != "" && i < |links| && answers[i].linkOk ==> LastWriteAt(links, i, childDoctype, u[i].name)
    ensures !(u[i].name != "" && i < |links| && answers[i].linkOk) ==>
      forall k :: 0 <= k < |links| ==> !Writes(links[k], childDoctype, u[i].name)
  {
    forall k | 0 <= k < |links| && k != i ensures !Writes(links[k], childDoctype, u[i].name) {
      if links[k].Write? {
        assert u[k].name == links[k].childName;
      }
    }
  }

  /** A row with a Payment Entry shares its name with no unlinked row. */
  lemma UnlinkedNamesDiffer(t: seq<ChequeRow>, p: nat)
    requires UniqueNames(t)
    requires p < |t| && t[p].paymentEntry != ""
    ensures forall k :: 0 <= k < |Unlinked(t)| ==> Unlinked(t)[k].name != t[p].name
  {
    var u := Unlinked(t);
    forall k | 0 <= k < |u| ensures u[k].name != t[p].name {
      assert u[k] in u;
      var q :| 0 <= q < |t| && t[q] == u[k];
    }
  }

  /** No write of a run reaches a row that already had a Payment Entry. */
  lemma NoWriteOntoLinkedRow(t: seq<ChequeRow>, links: seq<LinkBack>, answers: seq<Remote>, childDoctype: string, p: nat)
    requires WritesFor(links, Unlinked(t), answers, childDoctype)
    requires UniqueNames(t)
    requires p < |t| && t[p].paymentEntry != ""
    ensures forall k :: 0 <= k < |links| ==> !Writes(links[k], childDoctype, t[p].name)
  {
    UnlinkedNamesDiffer(t, p);
  }

  /** A run leaves every row that already had a Payment Entry as it was. */
  lemma LinkedRowsUntouched(doc: ChequeEntry, store: Store, today: string, answers: seq<Remote>, p: nat)
    requires |answers| == |Unlinked(SelectTable(doc))|
    requires OnSubmit(doc, store, today, answers).Ran?
    requires UniqueNames(SelectTable(doc))
    requires p < |SelectTable(doc)| && SelectTable(doc)[p].paymentEntry != ""
    ensures SelectTable(AfterLinkBack(doc, OnSubmit(doc, store, today, answers)))[p] == SelectTable(doc)[p]
  {
    RunEffect(doc, store, today, answers);
    NoWriteOntoLinkedRow(SelectTable(doc), OnSubmit(doc, store, today, answers).report.linkBacks, answers, ChildDoctype(doc), p);
  }

  /** What a run leaves on a row that had no Payment Entry: the name of its
      entry when that entry was submitted and the write onto the row
      succeeded; otherwise the row is unchanged and still unlinked, so a
      later submit plans it again. This covers the rows after a failure,
      which were never sent, and a row whose write failed although its
      entry exists. */
  lemma UnlinkedRowAfterRun(doc: ChequeEntry, store: Store, today: string, answers: seq<Remote>, i: nat, p: nat)
    requires |answers| == |Unlinked(SelectTable(doc))|
    requires OnSubmit(doc, store, today, answers).Ran?
    requires UniqueNames(SelectTable(doc))
    requires i < |Unlinked(SelectTable(doc))|
    requires p < |SelectTable(doc)| && SelectTable(doc)[p] == Unlinked(SelectTable(doc))[i]
    ensures var report := OnSubmit(doc, store, today, answers).report;
      SelectTable(AfterLinkBack(doc, OnSubmit(doc, store, today, answers)))[p] ==
        if SelectTable(doc)[p].name != "" && i < |report.submitted| && answers[i].linkOk
        then SelectTable(doc)[p].(paymentEntry := report.submitted[i])
        else SelectTable(doc)[p]
  {
    RunEffect(doc, store, today, answers);
    RunCounts(doc, store, today, answers);
    UnlinkedUniqueNames(SelectTable(doc));
    OwnWriteOnly(OnSubmit(doc, store, today, answers).report.linkBacks, Unlinked(SelectTable(doc)), answers, ChildDoctype(doc), i);
  }

  /** After a run in which every entry was submitted and every write
      succeeded, every row of the selected table has a Payment Entry
      (given distinct, non-empty row names). */
  lemma FullRunLinksEveryRow(doc: ChequeEntry, store: Store, today: string, answers: seq<Remote>, p: nat)
    requires |answers| == |Unlinked(SelectTable(doc))|
    requires OnSubmit(doc, store, today, answers).Ran?
    requires UniqueNames(SelectTable(doc))
    requires forall q :: 0 <= q < |SelectTable(doc)| ==> SelectTable(doc)[q].name != ""
    requires forall i :: 0 <= i < |answers| ==> answers[i].Submitted? && answers[i].entry != "" && answers[i].linkOk
    requires p < |SelectTable(doc)|
    ensures SelectTable(AfterLinkBack(doc, OnSubmit(doc, store, today, answers)))[p].paymentEntry != ""
  {
    var t := SelectTable(doc);
    var u := Unlinked(t);
    if t[p].paymentEntry != "" {
      LinkedRowsUntouched(doc, store, today, answers, p);
    } else {
      assert t[p] in u;
      var i :| 0 <= i < |u| && u[i] == t[p];
      RunCounts(doc, store, today, answers);
      assert FirstFailure(answers) == |answers|;
      UnlinkedRowAfterRun(doc, store, today, answers, i, p);
    }
  }

  /** Submitting again after such a run creates nothing: the batch is
      already fully linked, whatever the date. */
  lemma RerunCreatesNothing(doc: ChequeEntry, store: Store, today: string, answers: seq<Remote>, later: string)
    requires |answers| == |Unlinked(SelectTable(doc))|
    requires OnSubmit(doc, store, today, answers).Ran?
    requires UniqueNames(SelectTable(doc))
    requires forall q :: 0 <= q < |SelectTable(doc)| ==> SelectTable(doc)[q].name != ""
    requires forall i :: 0 <= i < |answers| ==> answers[i].Submitted? && answers[i].entry != "" && answers[i].linkOk
    ensures var d := AfterLinkBack(doc, OnSubmit(doc, store, today, answers));
      Unlinked(SelectTable(d)) == [] && OnSubmit(d, store, later, []) == NoNewEntries
  {
    var o := OnSubmit(doc, store, today, answers);
    var d := AfterLinkBack(doc, o);
    RunEffect(doc, store, today, answers);
    forall p | 0 <= p < |SelectTable(d)| ensures SelectTable(d)[p].paymentEntry != "" {
      FullRunLinksEveryRow(doc, store, today, answers, p);
    }
    UnlinkedEmptyIff(SelectTable(d));
    AutoDetectIgnoresTables(doc, store, d.chequeTable, d.chequeTable2);
  }
}

=== FILE: payload.dfy ===
/** The Payment Entry document sent to the store for one cheque row: the
    base fields of the submit hook (multiple_cheque_entry.js lines 231-256)
    merged with the alias fields of `buildPaymentEntryPayload` (lines 91-112).
 */
module Payload {
  import opened Values
  import opened Entry
  import opened Resolver

  /** A JSON field value: text, or null/undefined. */
  datatype Field = Text(text: string) | Absent

  /** The Payment Entry object sent to `frappe.client.insert`. The first
      block holds the base fields the submit hook sets for a row; the
      second the alias fields `buildPaymentEntryPayload` adds, which a base
      object does not carry yet (`Absent`, undefined). */
  datatype Payload = Payload(
    doctype: string,
    postingDate: Field,
    referenceDoctype: string,
    referenceLink: Field,
    paymentType: Field,
    modeOfPayment: Field,
    modeOfPaymentType: Field,
    partyType: Field,
    party: Field,
    paidFrom: Field,
    paidTo: Field,
    chequeBank: Field,
    bankAcc: Field,
    chequeType: Field,
    referenceNo: Field,
    referenceDate: Field,
    paidAmount: nat,
    receivedAmount: nat,
    firstBeneficiary: Field,
    personName: Field,
    issuerName: Field,
    pictureOfCheck: Field,
    chequeTableNo: Field,
    chequeTableNo2: Field,
    // aliases
    paidToAccount: Field,
    paidFromAccount: Field,
    accountPaidTo: Field,
    accountPaidFrom: Field,
    paidToAccountName: Field,
    paidFromAccountName: Field,
    paidToAccountCurrency: Field,
    paidFromAccountCurrency: Field,
    accountPaidToCurrency: Field,
    paidToCurrency: Field,
    accountCurrencyTo: Field
  )

  /** Document text as a field: "" is sent as absent. */
  function Str(s: string): Field {
    if s == "" then Absent else Text(s)
  }

  /** A resolved value as a field: null is sent as absent. */
  function OptField(o: Option<string>): Field {
    Str(OrEmpty(o))
  }

  /** The text of a field, "" for anything that is not text. */
  function TextOf(f: Field): string {
    if f.Text? then f.text else ""
  }

  /** Every field naming the destination account. */
  function PaidToFields(p: Payload): seq<Field> {
    [p.paidTo, p.paidToAccount, p.accountPaidTo, p.paidToAccountName]
  }

  /** Every field naming the source account. */
  function PaidFromFields(p: Payload): seq<Field> {
    [p.paidFrom, p.paidFromAccount, p.accountPaidFrom, p.paidFromAccountName]
  }

  /** Every field naming the currency. */
  function CurrencyFields(p: Payload): seq<Field> {
    [p.paidToAccountCurrency, p.paidFromAccountCurrency, p.accountPaidToCurrency,
     p.paidToCurrency, p.accountCurrencyTo]
  }

  /** The object without its alias fields. */
  function BaseOf(p: Payload): Payload {
    p.(paidToAccount := Absent, paidFromAccount := Absent, accountPaidTo := Absent,
       accountPaidFrom := Absent, paidToAccountName := Absent, paidFromAccountName := Absent,
       paidToAccountCurrency := Absent, paidFromAccountCurrency := Absent,
       accountPaidToCurrency := Absent, paidToCurrency := Absent, accountCurrencyTo := Absent)
  }

  /** `buildPaymentEntryPayload`: `Object.assign({}, base, alternates)`.
      Every account alias carries the base's account, every currency alias
      the given currency, and no base field changes. */
  function BuildPaymentEntryPayload(base: Payload, currency: Option<string>): (p: Payload)
    ensures forall f :: f in PaidToFields(p) ==> f == base.paidTo
    ensures forall f :: f in PaidFromFields(p) ==> f == base.paidFrom
    ensures forall f :: f in CurrencyFields(p) ==> f == OptField(currency)
    ensures BaseOf(p) == BaseOf(base)
  {
    var to, from, cur := base.paidTo, base.paidFrom, OptField(currency);
    base.(
      paidTo := to, paidFrom := from,
      paidToAccount := to, paidFromAccount := from,
      accountPaidTo := to, accountPaidFrom := from,
      paidToAccountName := to, paidFromAccountName := from,
      paidToAccountCurrency := cur, paidFromAccountCurrency := cur,
      accountPaidToCurrency := cur, paidToCurrency := cur,
      accountCurrencyTo := cur)
  }

  /** `row.paid_amount || row.amount || 0`. */
  function RowAmount(row: ChequeRow): (a: nat)
    ensures a == 0 <==> row.paidAmount == 0 && row.amount == 0
    ensures row.paidAmount != 0 ==> a == row.paidAmount
    ensures row.paidAmount == 0 ==> a == row.amount
  {
    if row.paidAmount != 0 then row.paidAmount
    else if row.amount != 0 then row.amount
    else 0
  }

  /** The base object built for one row of the selected table: the
      resolved accounts, the row's amount as both amounts, the posting date
      falling back to the transaction date and then to today, and no alias
      field yet. */
  function BasePayload(doc: ChequeEntry, row: ChequeRow, r: Resolved, today: string): (p: Payload)
    ensures BaseOf(p) == p
    ensures p.doctype == "Payment Entry" && p.referenceDoctype == "Multiple Cheque Entry"
    ensures p.paidTo == OptField(r.paidTo) && p.paidFrom == OptField(r.paidFrom)
    ensures p.paidAmount == p.receivedAmount == RowAmount(row)
    ensures today != "" ==> p.postingDate.Text?
    ensures p.postingDate.Text? ==>
      p.postingDate.text in [doc.postingDate, doc.transactionDate, today] && p.postingDate.text != ""
    ensures doc.postingDate != "" ==> p.postingDate == Text(doc.postingDate)
    ensures doc.postingDate == "" && doc.transactionDate != "" ==> p.postingDate == Text(doc.transactionDate)
    ensures doc.postingDate == "" && doc.transactionDate == "" ==> p.postingDate == Str(today)
    ensures p.referenceLink == Str(doc.name)
    ensures && p.paymentType == Str(doc.paymentType) && p.partyType == Str(doc.partyType)
            && p.party == Str(doc.party) && p.modeOfPayment == Str(doc.modeOfPayment)
            && p.modeOfPaymentType == Str(doc.modeOfPaymentType)
            && p.chequeBank == Str(doc.chequeBank) && p.bankAcc == Str(doc.bankAcc)
    ensures && p.chequeType == Str(row.chequeType) && p.referenceNo == Str(row.referenceNo)
            && p.referenceDate == Str(row.referenceDate) && p.firstBeneficiary == Str(row.firstBeneficiary)
            && p.personName == Str(row.personName) && p.issuerName == Str(row.issuerName)
            && p.pictureOfCheck == Str(row.pictureOfCheck)
    ensures p.chequeTableNo == Absent || p.chequeTableNo2 == Absent
  {
    var dir := DirectionOf(doc);
    var dates := [doc.postingDate, doc.transactionDate, today];
    FirstPresentIn(FirstPresent(dates), dates);
    FirstPresentNone(FirstPresent(dates), dates);
    assert today in dates;
    assert doc.postingDate == "" && doc.transactionDate != "" ==> FirstPresent(dates) == Some(doc.transactionDate) by {
      if doc.postingDate == "" && doc.transactionDate != "" {
        FirstPresentAt(FirstPresent(dates), dates, 1);
      }
    }
    Payload(
      doctype := "Payment Entry",
      postingDate := OptField(FirstPresent(dates)),
      referenceDoctype := "Multiple Cheque Entry",
      referenceLink := Str(doc.name),
      paymentType := Str(doc.paymentType),
      modeOfPayment := Str(doc.modeOfPayment),
      modeOfPaymentType := Str(doc.modeOfPaymentType),
      partyType := Str(doc.partyType),
      party := Str(doc.party),
      paidFrom := OptField(r.paidFrom),
      paidTo := OptField(r.paidTo),
      chequeBank := Str(doc.chequeBank),
      bankAcc := Str(doc.bankAcc),
      chequeType := Str(row.chequeType),
      referenceNo := Str(row.referenceNo),
      referenceDate := Str(row.referenceDate),
      paidAmount := RowAmount(row),
      receivedAmount := RowAmount(row),
      firstBeneficiary := Str(row.firstBeneficiary),
      personName := Str(row.personName),
      issuerName := Str(row.issuerName),
      pictureOfCheck := Str(row.pictureOfCheck),
      chequeTableNo := if dir == Receive then Str(row.name) else Absent,
      chequeTableNo2 := if dir == Pay then Str(row.name) else Absent,
      paidToAccount := Absent, paidFromAccount := Absent,
      accountPaidTo := Absent, accountPaidFrom := Absent,
      paidToAccountName := Absent, paidFromAccountName := Absent,
      paidToAccountCurrency := Absent, paidFromAccountCurrency := Absent,
      accountPaidToCurrency := Absent, paidToCurrency := Absent,
      accountCurrencyTo := Absent
    )
  }

  /** The payload inserted for one row: both amounts are the row's amount
      (0 when it has none); every account and currency alias carries the
      one resolved value; the row is referenced through `cheque_table_no`
      only when receiving and through `cheque_table_no2` only when paying. */
  function PaymentEntryFor(doc: ChequeEntry, row: ChequeRow, r: Resolved, today: string): (p: Payload)
    ensures p.paidAmount == p.receivedAmount
    ensures p.paidAmount == 0 <==> row.paidAmount == 0 && row.amount == 0
    ensures row.paidAmount != 0 ==> p.paidAmount == row.paidAmount
    ensures row.paidAmount == 0 ==> p.paidAmount == row.amount
    ensures forall f :: f in PaidToFields(p) ==> f == OptField(r.paidTo)
    ensures forall f :: f in PaidFromFields(p) ==> f == OptField(r.paidFrom)
    ensures forall f :: f in CurrencyFields(p) ==> f == OptField(r.currency)
    ensures p.chequeTableNo != Absent ==> DirectionOf(doc) == Receive && p.chequeTableNo == Text(row.name)
    ensures p.chequeTableNo2 != Absent ==> DirectionOf(doc) == Pay && p.chequeTableNo2 == Text(row.name)
    ensures row.name != "" ==>
      (p.chequeTableNo != Absent <==> DirectionOf(doc) == Receive) &&
      (p.chequeTableNo2 != Absent <==> DirectionOf(doc) == Pay)
  {
    BuildPaymentEntryPayload(BasePayload(doc, row, r, today), r.currency)
  }
}

=== FILE: records.dfy ===
/** Plain records as the document store returns them, and the
    `firstNonEmpty` scan over a fixed list of synonym keys
    (multiple_cheque_entry.js, lines 82-88).
 */
module Records {
  import opened Values

  /** A field-name to value mapping; a name that is not a key reads as
      undefined, a key whose value is "" holds a null or empty value. */
  type Record = map<string, string>

  /** `obj.k`: the value under `k`, or "" when there is no such key. */
  function Get(rec: Record, k: string): string {
    if k in rec then rec[k] else ""
  }

  /** `hasOwnProperty(obj, k) && obj[k]`: the key exists with a truthy value. */
  predicate Has(rec: Record, k: string) {
    k in rec && rec[k] != ""
  }

  /** The value of the earliest key in `keys` that `obj` holds with a
      non-empty value; `None` when `obj` is null or no key qualifies. */
  function FirstNonEmpty(obj: Option<Record>, keys: seq<string>): (r: Option<string>)
    ensures r != Some("")
    ensures r.None? <==> (obj.None? || forall i :: 0 <= i < |keys| ==> !Has(obj.value, keys[i]))
    ensures r.Some? ==>
      exists i :: 0 <= i < |keys| && Has(obj.value, keys[i]) && r.value == obj.value[keys[i]] &&
                  forall j :: 0 <= j < i ==> !Has(obj.value, keys[j])
    decreases |keys|
  {
    if obj.None? || |keys| == 0 then None
    else if Has(obj.value, keys[0]) then Some(obj.value[keys[0]])
    else FirstNonEmpty(obj, keys[1..])
  }

  /** The scan agrees with the `obj.k1 || obj.k2 || … || null` chain over the
      same keys, so the two spellings multiple_cheque_entry.js mixes are interchangeable. */
  lemma {:induction false} FirstNonEmptyIsChain(rec: Record, keys: seq<string>)
    ensures FirstNonEmpty(Some(rec), keys) == FirstPresent(seq(|keys|, i requires 0 <= i < |keys| => Get(rec, keys[i])))
    decreases |keys|
  {
    var vals := seq(|keys|, i requires 0 <= i < |keys| => Get(rec, keys[i]));
    if |keys| > 0 {
      var tail := seq(|keys[1..]|, i requires 0 <= i < |keys[1..]| => Get(rec, keys[1..][i]));
      assert vals[1..] == tail;
      FirstNonEmptyIsChain(rec, keys[1..]);
    }
  }
}

=== FILE: resolver.dfy ===
/** Automatic account detection (`autoDetectAccounts`, multiple_cheque_entry.js
    lines 115-195, with its lookup helper `getDocValue`, lines 64-79).

    The four remote reads (Bank Account, Mode of Payment, the party, the
    Company) are answered from a pre-fetched `Store`; a read whose reference
    is not a key of the store stands both for a record that does not exist
    and for a failed call, since the helper resolves both to null. The
    resolver is then a pure function of the document and the store.
 */
module Resolver {
  import opened Values
  import opened Records
  import opened Entry

  /** A document of the store, by doctype and name. */
  datatype DocRef = DocRef(doctype: string, name: string)

  /** The answers the store gives to `frappe.client.get_value`. */
  type Store = map<DocRef, Record>

  /** `getDocValue`: null for an empty name, for a missing record and for a
      failed call; never an error. */
  function GetDocValue(store: Store, doctype: string, name: string): (r: Option<Record>)
    ensures r.Some? <==> name != "" && DocRef(doctype, name) in store
    ensures r.Some? ==> r.value == store[DocRef(doctype, name)]
  {
    if name == "" then None
    else if DocRef(doctype, name) in store then Some(store[DocRef(doctype, name)])
    else None
  }

  /** The value object `{ paid_to, paid_from, currency }`; `None` is null. */
  datatype Resolved = Resolved(paidTo: Option<string>, paidFrom: Option<string>, currency: Option<string>)

  // Step 1: the fields the user filled explicitly.
  function ExplicitPaidTo(doc: ChequeEntry): Option<string> {
    FirstPresent([doc.accountPaidTo, doc.accountPaid])
  }
  function ExplicitPaidFrom(doc: ChequeEntry): Option<string> {
    FirstPresent([doc.accountPaidFrom, doc.accountFrom])
  }
  function ExplicitCurrency(doc: ChequeEntry): Option<string> {
    FirstPresent([doc.accountCurrency, doc.currency])
  }
  predicate HasExplicit(doc: ChequeEntry) {
    ExplicitPaidTo(doc).Some? || ExplicitPaidFrom(doc).Some? || ExplicitCurrency(doc).Some?
  }

  /** The party doctype: "Customer" for customers, "Supplier" for anything else. */
  function PartyDoctype(doc: ChequeEntry): string {
    if doc.partyType == "Customer" then "Customer" else "Supplier"
  }

  /** Synonym keys tried, in this order, on a Mode of Payment record. */
  const MopAccountKeys: seq<string> :=
    ["account", "default_account", "bank_account", "default_bank_account", "account_head"]

  /** Synonym keys tried, in this order, on a Customer or Supplier record. */
  const PartyAccountKeys: seq<string> :=
    ["receivable_account", "payable_account", "default_bank_account", "default_account",
     "default_payment_account", "account"]

  /** The reads the resolver issues, in the order it awaits them. */
  function Lookups(doc: ChequeEntry): (refs: seq<DocRef>)
    ensures HasExplicit(doc) ==> refs == []
    ensures |refs| <= 4
    ensures forall i :: 0 <= i < |refs| ==> refs[i].name != ""
  {
    if HasExplicit(doc) then []
    else
      (if doc.bankAcc != "" then [DocRef("Bank Account", doc.bankAcc)] else []) +
      (if doc.modeOfPayment != "" then [DocRef("Mode of Payment", doc.modeOfPayment)] else []) +
      (if doc.party != "" && doc.partyType != "" then [DocRef(PartyDoctype(doc), doc.party)] else []) +
      (if doc.company != "" then [DocRef("Company", doc.company)] else [])
  }

  function BankInfo(doc: ChequeEntry, store: Store): Option<Record> {
    if doc.bankAcc != "" then GetDocValue(store, "Bank Account", doc.bankAcc) else None
  }
  function MopInfo(doc: ChequeEntry, store: Store): Option<Record> {
    if doc.modeOfPayment != "" then GetDocValue(store, "Mode of Payment", doc.modeOfPayment) else None
  }
  function PartyInfo(doc: ChequeEntry, store: Store): Option<Record> {
    if doc.party != "" && doc.partyType != "" then GetDocValue(store, PartyDoctype(doc), doc.party) else None
  }
  function CompanyInfo(doc: ChequeEntry, store: Store): Option<Record> {
    if doc.company != "" then GetDocValue(store, "Company", doc.company) else None
  }

  /** What steps 2-5 extract from the four reads; "" where a read gave nothing. */
  datatype Sources = Sources(
    bankAccount: string,
    bankCurrency: string,
    mopAccount: string,
    mopCurrency: string,
    partyAccount: string,
    companyCurrency: string
  )

  /** Step 2: the bank account's ledger account, `account || account_name`. */
  function BankAccountOf(doc: ChequeEntry, store: Store): (a: string)
    ensures a != "" ==> doc.bankAcc != "" && DocRef("Bank Account", doc.bankAcc) in store
    ensures doc.bankAcc != "" && DocRef("Bank Account", doc.bankAcc) in store ==>
      var rec := store[DocRef("Bank Account", doc.bankAcc)];
      a == (if Get(rec, "account") != "" then Get(rec, "account") else Get(rec, "account_name"))
  {
    var bank := BankInfo(doc, store);
    if bank.Some? then OrEmpty(Or(Present(Get(bank.value, "account")), Present(Get(bank.value, "account_name")))) else ""
  }

  /** Step 2: the bank account's currency. */
  function BankCurrencyOf(doc: ChequeEntry, store: Store): (c: string)
    ensures c != "" ==> doc.bankAcc != "" && DocRef("Bank Account", doc.bankAcc) in store
    ensures doc.bankAcc != "" && DocRef("Bank Account", doc.bankAcc) in store ==>
      c == Get(store[DocRef("Bank Account", doc.bankAcc)], "currency")
  {
    var bank := BankInfo(doc, store);
    if bank.Some? then Get(bank.value, "currency") else ""
  }

  /** Step 3: the first account-like field of the Mode of Payment. */
  function MopAccountOf(doc: ChequeEntry, store: Store): (a: string)
    ensures a != "" ==> doc.modeOfPayment != "" && DocRef("Mode of Payment", doc.modeOfPayment) in store
    ensures doc.modeOfPayment != "" && DocRef("Mode of Payment", doc.modeOfPayment) in store ==>
      Present(a) == FirstNonEmpty(Some(store[DocRef("Mode of Payment", doc.modeOfPayment)]), MopAccountKeys)
  {
    var mop := MopInfo(doc, store);
    if mop.Some? then OrEmpty(FirstNonEmpty(mop, MopAccountKeys)) else ""
  }

  /** Step 3: the Mode of Payment's currency. */
  function MopCurrencyOf(doc: ChequeEntry, store: Store): (c: string)
    ensures c != "" ==> doc.modeOfPayment != "" && DocRef("Mode of Payment", doc.modeOfPayment) in store
    ensures doc.modeOfPayment != "" && DocRef("Mode of Payment", doc.modeOfPayment) in store ==>
      c == Get(store[DocRef("Mode of Payment", doc.modeOfPayment)], "currency")
  {
    var mop := MopInfo(doc, store);
    if mop.Some? then Get(mop.value, "currency") else ""
  }

  /** Step 4: the first account-like field of the Customer or Supplier. */
  function PartyAccountOf(doc: ChequeEntry, store: Store): (a: string)
    ensures a != "" ==> doc.party != "" && doc.partyType != "" && DocRef(PartyDoctype(doc), doc.party) in store
    ensures doc.party != "" && doc.partyType != "" && DocRef(PartyDoctype(doc), doc.party) in store ==>
      Present(a) == FirstNonEmpty(Some(store[DocRef(PartyDoctype(doc), doc.party)]), PartyAccountKeys)
  {
    var party := PartyInfo(doc, store);
    if party.Some? then OrEmpty(FirstNonEmpty(party, PartyAccountKeys)) else ""
  }

  /** Step 5: the company's default currency. */
  function CompanyCurrencyOf(doc: ChequeEntry, store: Store): (c: string)
    ensures c != "" ==> doc.company != "" && DocRef("Company", doc.company) in store
    ensures doc.company != "" && DocRef("Company", doc.company) in store ==>
      c == Get(store[DocRef("Company", doc.company)], "default_currency")
  {
    var company := CompanyInfo(doc, store);
    if company.Some? then Get(company.value, "default_currency") else ""
  }

  /** Steps 2-5 together; a read that failed leaves its values empty rather
      than failing the resolution. */
  function GatherSources(doc: ChequeEntry, store: Store): Sources {
    Sources(
      bankAccount := BankAccountOf(doc, store),
      bankCurrency := BankCurrencyOf(doc, store),
      mopAccount := MopAccountOf(doc, store),
      mopCurrency := MopCurrencyOf(doc, store),
      partyAccount := PartyAccountOf(doc, store),
      companyCurrency := CompanyCurrencyOf(doc, store)
    )
  }

  /** "Compose logic to choose paid_to & paid_from based on payment_type",
      then the "final fallback" to the legacy account fields of the
      document. The per-direction priority lists are stated by
      `PayPriority`, `ReceivePriority` and `NeutralPriority`. */
  function Compose(doc: ChequeEntry, s: Sources, dir: Direction): (r: Resolved)
    ensures r.paidTo != Some("") && r.paidFrom != Some("")
    ensures IsFirstPresent(r.currency, [s.bankCurrency, s.mopCurrency, s.companyCurrency])
    ensures r.paidTo.None? ==> doc.paidTo == "" && doc.account == "" && doc.payableAccount == ""
    ensures r.paidFrom.None? ==> doc.paidFrom == "" && doc.account == ""
  {
    var currency := FirstPresent([s.bankCurrency, s.mopCurrency, s.companyCurrency]);
    var (paidTo, paidFrom) :=
      match dir
      case Pay =>
        (FirstPresent([doc.payableAccount, s.partyAccount, doc.paidTo]),
         FirstPresent([s.bankAccount, s.mopAccount, doc.paidFrom, doc.account]))
      case Receive =>
        (FirstPresent([s.bankAccount, s.mopAccount, doc.paidTo]),
         FirstPresent([s.partyAccount, doc.paidFrom]))
      case Neutral =>
        (FirstPresent([s.bankAccount, s.mopAccount, doc.paidTo, s.partyAccount]),
         FirstPresent([doc.paidFrom, s.bankAccount, s.mopAccount]));
    var toFallback := [doc.paidTo, doc.account, doc.payableAccount];
    var fromFallback := [doc.paidFrom, doc.account];
    FirstPresentNone(FirstPresent(toFallback), toFallback);
    FirstPresentNone(FirstPresent(fromFallback), fromFallback);
    assert doc.paidTo in toFallback && doc.account in toFallback && doc.payableAccount in toFallback;
    assert doc.paidFrom in fromFallback && doc.account in fromFallback;
    Resolved(
      paidTo := Or(paidTo, FirstPresent([doc.paidTo, doc.account, doc.payableAccount])),
      paidFrom := Or(paidFrom, FirstPresent([doc.paidFrom, doc.account])),
      currency := currency
    )
  }

  /** `autoDetectAccounts`: explicit overrides win outright; otherwise the
      lookups are combined by direction. No resolved value is ever "". */
  function AutoDetect(doc: ChequeEntry, store: Store): (r: Resolved)
    ensures r.paidTo != Some("") && r.paidFrom != Some("") && r.currency != Some("")
    ensures HasExplicit(doc) ==>
      && IsFirstPresent(r.paidTo, [doc.accountPaidTo, doc.accountPaid])
      && IsFirstPresent(r.paidFrom, [doc.accountPaidFrom, doc.accountFrom])
      && IsFirstPresent(r.currency, [doc.accountCurrency, doc.currency])
    ensures !HasExplicit(doc) ==>
      var s := GatherSources(doc, store);
      IsFirstPresent(r.currency, [s.bankCurrency, s.mopCurrency, s.companyCurrency])
  {
    if HasExplicit(doc) then
      Resolved(ExplicitPaidTo(doc), ExplicitPaidFrom(doc), ExplicitCurrency(doc))
    else
      Compose(doc, GatherSources(doc, store), DirectionOf(doc))
  }

  /** With any override present the resolver issues no read and its
      answer does not depend on the store at all. */
  lemma ExplicitSkipsLookups(doc: ChequeEntry, store1: Store, store2: Store)
    requires HasExplicit(doc)
    ensures Lookups(doc) == []
    ensures AutoDetect(doc, store1) == AutoDetect(doc, store2)
  {
  }

  /** A currency override alone is an override: it skips every lookup, so
      neither account is found, whatever the store holds. */
  lemma CurrencyOverrideAlone(doc: ChequeEntry, store: Store)
    requires doc.accountPaidTo == "" && doc.accountPaid == "" && doc.accountPaidFrom == "" && doc.accountFrom == ""
    requires doc.accountCurrency != "" || doc.currency != ""
    ensures Lookups(doc) == []
    ensures AutoDetect(doc, store).paidTo.None? && AutoDetect(doc, store).paidFrom.None?
    ensures AutoDetect(doc, store).currency ==
      Some(if doc.accountCurrency != "" then doc.accountCurrency else doc.currency)
  {
    var r := AutoDetect(doc, store);
    FirstPresentNone(ExplicitPaidTo(doc), [doc.accountPaidTo, doc.accountPaid]);
    FirstPresentNone(ExplicitPaidFrom(doc), [doc.accountPaidFrom, doc.accountFrom]);
    var c := [doc.accountCurrency, doc.currency];
    if doc.accountCurrency != "" {
      FirstPresentAt(ExplicitCurrency(doc), c, 0);
    } else {
      FirstPresentAt(ExplicitCurrency(doc), c, 1);
    }
  }

  /** The resolver does not look at the cheque tables. */
  lemma AutoDetectIgnoresTables(doc: ChequeEntry, store: Store, t1: seq<ChequeRow>, t2: seq<ChequeRow>)
    ensures AutoDetect(doc.(chequeTable := t1, chequeTable2 := t2), store) == AutoDetect(doc, store)
  {
    var d := doc.(chequeTable := t1, chequeTable2 := t2);
    assert HasExplicit(d) == HasExplicit(doc);
    if !HasExplicit(doc) {
      assert BankInfo(d, store) == BankInfo(doc, store);
      assert MopInfo(d, store) == MopInfo(doc, store);
      assert PartyInfo(d, store) == PartyInfo(doc, store);
      assert CompanyInfo(d, store) == CompanyInfo(doc, store);
      var s := GatherSources(doc, store);
      assert GatherSources(d, store) == s;
      assert DirectionOf(d) == DirectionOf(doc);
      assert d.paidTo == doc.paidTo && d.paidFrom == doc.paidFrom;
      assert d.account == doc.account && d.payableAccount == doc.payableAccount;
      assert Compose(d, s, DirectionOf(doc)) == Compose(doc, s, DirectionOf(doc));
    }
  }

  /** Without overrides, each of the four records is read exactly when its
      reference is set on the document. */
  lemma LookupsAreGuardedReads(doc: ChequeEntry)
    requires !HasExplicit(doc)
    ensures DocRef("Bank Account", doc.bankAcc) in Lookups(doc) <==> doc.bankAcc != ""
    ensures DocRef("Mode of Payment", doc.modeOfPayment) in Lookups(doc) <==> doc.modeOfPayment != ""
    ensures DocRef(PartyDoctype(doc), doc.party) in Lookups(doc) <==> doc.party != "" && doc.partyType != ""
    ensures DocRef("Company", doc.company) in Lookups(doc) <==> doc.company != ""
  {
  }

  /** The store restricted to the given references. */
  function RestrictTo(store: Store, refs: seq<DocRef>): (r: Store)
    ensures forall d :: d in r <==> d in store && d in refs
  {
    map d | d in store && d in refs :: store[d]
  }

  /** The resolver reads nothing but the documents listed by `Lookups`. */
  lemma AutoDetectReadsOnlyLookups(doc: ChequeEntry, store: Store)
    ensures AutoDetect(doc, store) == AutoDetect(doc, RestrictTo(store, Lookups(doc)))
  {
    if !HasExplicit(doc) {
      var small := RestrictTo(store, Lookups(doc));
      assert BankInfo(doc, store) == BankInfo(doc, small);
      assert MopInfo(doc, store) == MopInfo(doc, small);
      assert PartyInfo(doc, store) == PartyInfo(doc, small);
      assert CompanyInfo(doc, store) == CompanyInfo(doc, small);
    }
  }

  /** Pay: the money leaves through the bank, so the source account is the
      bank-derived one and the destination the payable side. With the final
      fallback folded in, each side is the first present value of one fixed
      priority list. */
  lemma PayPriority(doc: ChequeEntry, s: Sources)
    ensures IsFirstPresent(Compose(doc, s, Pay).paidFrom,
                           [s.bankAccount, s.mopAccount, doc.paidFrom, doc.account])
    ensures IsFirstPresent(Compose(doc, s, Pay).paidTo,
                           [doc.payableAccount, s.partyAccount, doc.paidTo, doc.account])
  {
    var B, M, Y := s.bankAccount, s.mopAccount, s.partyAccount;
    var T, F, A, P := doc.paidTo, doc.paidFrom, doc.account, doc.payableAccount;
    FallbackChain([B, M, F, A], F, [], [A]);
    assert [F, A] == [F] + [] + [A];
    assert [B, M, F, A] + [] == [B, M, F, A];
    FallbackChain([P, Y, T], T, [A], [P]);
    assert [T, A, P] == [T] + [A] + [P];
    assert [P, Y, T, A] == [P, Y, T] + [A];
  }

  /** Receive: the roles swap; the bank-derived account receives and the
      counter-party's account pays. */
  lemma ReceivePriority(doc: ChequeEntry, s: Sources)
    ensures IsFirstPresent(Compose(doc, s, Receive).paidTo,
                           [s.bankAccount, s.mopAccount, doc.paidTo, doc.account, doc.payableAccount])
    ensures IsFirstPresent(Compose(doc, s, Receive).paidFrom,
                           [s.partyAccount, doc.paidFrom, doc.account])
  {
    var B, M, Y := s.bankAccount, s.mopAccount, s.partyAccount;
    var T, F, A, P := doc.paidTo, doc.paidFrom, doc.account, doc.payableAccount;
    FallbackChain([B, M, T], T, [A, P], []);
    assert [T, A, P] == [T] + [A, P] + [];
    assert [B, M, T, A, P] == [B, M, T] + [A, P];
    FallbackChain([Y, F], F, [A], []);
    assert [F, A] == [F] + [A] + [];
    assert [Y, F, A] == [Y, F] + [A];
  }

  /** Neither direction: the destination prefers the bank side and only then
      the counter-party; the source keeps the document's own field first. */
  lemma NeutralPriority(doc: ChequeEntry, s: Sources)
    ensures IsFirstPresent(Compose(doc, s, Neutral).paidTo,
                           [s.bankAccount, s.mopAccount, doc.paidTo, s.partyAccount, doc.account, doc.payableAccount])
    ensures IsFirstPresent(Compose(doc, s, Neutral).paidFrom,
                           [doc.paidFrom, s.bankAccount, s.mopAccount, doc.account])
  {
    var B, M, Y := s.bankAccount, s.mopAccount, s.partyAccount;
    var T, F, A, P := doc.paidTo, doc.paidFrom, doc.account, doc.payableAccount;
    FallbackChain([B, M, T, Y], T, [A, P], []);
    assert [T, A, P] == [T] + [A, P] + [];
    assert [B, M, T, Y, A, P] == [B, M, T, Y] + [A, P];
    FallbackChain([F, B, M], F, [A], []);
    assert [F, A] == [F] + [A] + [];
    assert [F, B, M, A] == [F, B, M] + [A];
  }

  /** The priority lists above, for the resolver as a whole: without an
      override, each account is the first present value of its direction's
      list over what the reads found and the document's own fields. */
  lemma AutoDetectByDirection(doc: ChequeEntry, store: Store)
    requires !HasExplicit(doc)
    ensures var r, s := AutoDetect(doc, store), GatherSources(doc, store);
      && (DirectionOf(doc) == Pay ==>
            && IsFirstPresent(r.paidFrom, [s.bankAccount, s.mopAccount, doc.paidFrom, doc.account])
            && IsFirstPresent(r.paidTo, [doc.payableAccount, s.partyAccount, doc.paidTo, doc.account]))
      && (DirectionOf(doc) == Receive ==>
            && IsFirstPresent(r.paidTo, [s.bankAccount, s.mopAccount, doc.paidTo, doc.account, doc.payableAccount])
            && IsFirstPresent(r.paidFrom, [s.partyAccount, doc.paidFrom, doc.account]))
      && (DirectionOf(doc) == Neutral ==>
            && IsFirstPresent(r.paidTo, [s.bankAccount, s.mopAccount, doc.paidTo, s.partyAccount, doc.account, doc.payableAccount])
            && IsFirstPresent(r.paidFrom, [doc.paidFrom, s.bankAccount, s.mopAccount, doc.account]))
  {
    var s := GatherSources(doc, store);
    match DirectionOf(doc)
    case Pay => PayPriority(doc, s);
    case Receive => ReceivePriority(doc, s);
    case Neutral => NeutralPriority(doc, s);
  }

  /** The two directions mirror each other: a bank-derived account pays out
      for Pay and receives for Receive, and (without a payable account on
      the document) the counter-party's account takes the other side. */
  lemma DirectionSwap(doc: ChequeEntry, s: Sources)
    ensures s.bankAccount != "" ==>
      Compose(doc, s, Pay).paidFrom == Some(s.bankAccount) == Compose(doc, s, Receive).paidTo
    ensures doc.payableAccount == "" && s.partyAccount != "" ==>
      Compose(doc, s, Pay).paidTo == Some(s.partyAccount) == Compose(doc, s, Receive).paidFrom
  {
    PayPriority(doc, s);
    ReceivePriority(doc, s);
    if doc.payableAccount == "" && s.partyAccount != "" {
      FirstPresentAt(Compose(doc, s, Pay).paidTo,
                     [doc.payableAccount, s.partyAccount, doc.paidTo, doc.account], 1);
    }
  }

  /** When both accounts come out null: with overrides, exactly when neither
      account override is filled (a currency override alone still skips
      every lookup); without, exactly when every lookup and every legacy
      account field is empty, whatever the direction. */
  lemma NoAccountIff(doc: ChequeEntry, store: Store)
    ensures var r := AutoDetect(doc, store);
      (r.paidTo.None? && r.paidFrom.None?) <==>
      if HasExplicit(doc) then
        doc.accountPaidTo == "" && doc.accountPaid == "" && doc.accountPaidFrom == "" && doc.accountFrom == ""
      else
        var s := GatherSources(doc, store);
        s.bankAccount == "" && s.mopAccount == "" && s.partyAccount == "" &&
        doc.paidTo == "" && doc.paidFrom == "" && doc.account == "" && doc.payableAccount == ""
  {
    if !HasExplicit(doc) {
      var s := GatherSources(doc, store);
      var r := Compose(doc, s, DirectionOf(doc));
      var B, M, Y := s.bankAccount, s.mopAccount, s.partyAccount;
      var T, F, A, P := doc.paidTo, doc.paidFrom, doc.account, doc.payableAccount;
      match DirectionOf(doc)
      case Pay =>
        PayPriority(doc, s);
        FirstPresentNone(r.paidFrom, [B, M, F, A]);
        FirstPresentNone(r.paidTo, [P, Y, T, A]);
        assert B in [B, M, F, A] && M in [B, M, F, A] && F in [B, M, F, A];
        assert P in [P, Y, T, A] && Y in [P, Y, T, A] && T in [P, Y, T, A] && A in [P, Y, T, A];
      case Receive =>
        ReceivePriority(doc, s);
        FirstPresentNone(r.paidTo, [B, M, T, A, P]);
        FirstPresentNone(r.paidFrom, [Y, F, A]);
        assert B in [B, M, T, A, P] && M in [B, M, T, A, P] && T in [B, M, T, A, P];
        assert A in [B, M, T, A, P] && P in [B, M, T, A, P];
        assert Y in [Y, F, A] && F in [Y, F, A];
      case Neutral =>
        NeutralPriority(doc, s);
        FirstPresentNone(r.paidTo, [B, M, T, Y, A, P]);
        FirstPresentNone(r.paidFrom, [F, B, M, A]);
        assert B in [B, M, T, Y, A, P] && M in [B, M, T, Y, A, P] && T in [B, M, T, Y, A, P];
        assert Y in [B, M, T, Y, A, P] && A in [B, M, T, Y, A, P] && P in [B, M, T, Y, A, P];
        assert F in [F, B, M, A];
    } else {
      var r := AutoDetect(doc, store);
      FirstPresentNone(r.paidTo, [doc.accountPaidTo, doc.accountPaid]);
      FirstPresentNone(r.paidFrom, [doc.accountPaidFrom, doc.accountFrom]);
      assert doc.accountPaidTo in [doc.accountPaidTo, doc.accountPaid];
      assert doc.accountPaid in [doc.accountPaidTo, doc.accountPaid];
      assert doc.accountPaidFrom in [doc.accountPaidFrom, doc.accountFrom];
      assert doc.accountFrom in [doc.accountPaidFrom, doc.accountFrom];
    }
  }
}

=== FILE: scenarios.dfy ===
/** Worked batches: a receipt against one bank account, run end to end. */
module Scenarios {
  import opened Values
  import opened Entry
  import opened Resolver
  import opened Payload
  import opened Batch
  import opened Links

  /** A document with every field empty. */
  const Blank: ChequeEntry := ChequeEntry(
    name := "", paymentType := "", postingDate := "", transactionDate := "",
    accountPaidTo := "", accountPaid := "", accountPaidFrom := "", accountFrom := "",
    accountCurrency := "", currency := "",
    bankAcc := "", modeOfPayment := "", modeOfPaymentType := "", party := "", partyType := "",
    partyName := "", company := "", chequeBank := "",
    paidFrom := "", paidTo := "", account := "", payableAccount := "",
    chequeTable := [], chequeTable2 := [])

  /** A cheque row with only a name and an amount. */
  function Cheque(name: string, amount: nat): ChequeRow {
    ChequeRow(name, "", 0, amount, "", "", "", "", "", "", "")
  }

  /** The store knows one bank account, "B1", held in account "Bank-001" in USD. */
  const BankStore: Store := map[DocRef("Bank Account", "B1") := map["account" := "Bank-001", "currency" := "USD"]]

  /** A receipt over bank account B1 whose second cheque is already linked. */
  const Receipt: ChequeEntry := Blank.(
    name := "MCE-1", paymentType := "Receive", postingDate := "2024-01-31", bankAcc := "B1",
    chequeTable := ReceiptCheques)

  /** The resolver reads the bank account: it receives into Bank-001, in
      USD, and finds no paying account. */
  lemma ReceiptResolves()
    ensures AutoDetect(Receipt, BankStore) == Resolved(Some("Bank-001"), None, Some("USD"))
  {
    var s := GatherSources(Receipt, BankStore);
    assert s == Sources("Bank-001", "USD", "", "", "", "");
    assert [s.bankAccount, s.mopAccount, Receipt.paidTo][1..] == [s.mopAccount, Receipt.paidTo];
    assert [s.bankCurrency, s.mopCurrency, s.companyCurrency][1..] == [s.mopCurrency, s.companyCurrency];
  }

  /** The two cheques of the receipt: the second is already linked. */
  const ReceiptCheques: seq<ChequeRow> := [Cheque("R1", 100), Cheque("R2", 200).(paymentEntry := "PE-EXISTING")]

  /** Any receipt over those two cheques whose accounts resolve to Bank-001
      in USD, as `Receipt` does over `BankStore`. */
  predicate ReceiptLike(doc: ChequeEntry, store: Store) {
    && doc.paymentType == "Receive"
    && doc.chequeTable == ReceiptCheques
    && AutoDetect(doc, store).paidTo == Some("Bank-001")
    && AutoDetect(doc, store).currency == Some("USD")
  }

  lemma ReceiptIsReceiptLike()
    ensures ReceiptLike(Receipt, BankStore)
  {
    ReceiptResolves();
  }

  /** Only the first cheque of such a receipt is planned. */
  lemma ReceiptPlansFirstCheque(doc: ChequeEntry)
    requires doc.paymentType == "Receive" && doc.chequeTable == ReceiptCheques
    ensures Unlinked(SelectTable(doc)) == [Cheque("R1", 100)]
  {
    var t := doc.chequeTable;
    assert t[1..][1..] == [];
  }

  /** One Payment Entry is created, for the first cheque only, and the run
      ends without error. */
  lemma ReceiptCreatesOneEntry(doc: ChequeEntry, store: Store, today: string)
    requires ReceiptLike(doc, store)
    ensures var o := OnSubmit(doc, store, today, [Submitted("PE-0001", true)]);
      && o.Ran?
      && o.report.failure.None?
      && |o.report.submitted| == 1
      && o.report.submitted[0] == "PE-0001"
      && |o.report.sent| == 1
      && o.report.sent[0] == PaymentEntryFor(doc, Cheque("R1", 100), AutoDetect(doc, store), today)
  {
    ReceiptPlansFirstCheque(doc);
    RunCounts(doc, store, today, [Submitted("PE-0001", true)]);
    RunPayloads(doc, store, today, [Submitted("PE-0001", true)]);
  }

  /** The payload of that entry: destination Bank-001 under every alias,
      USD, 100 received, referencing row R1. */
  lemma ReceiptPayload(doc: ChequeEntry, store: Store, today: string)
    requires ReceiptLike(doc, store)
    ensures var p := PaymentEntryFor(doc, Cheque("R1", 100), AutoDetect(doc, store), today);
      && (forall f :: f in PaidToFields(p) ==> f == Text("Bank-001"))
      && (forall f :: f in CurrencyFields(p) ==> f == Text("USD"))
      && p.paidAmount == p.receivedAmount == 100
      && p.chequeTableNo == Text("R1") && p.chequeTableNo2 == Absent
  {
  }

  /** After the run the first cheque carries the new entry and the already
      linked second cheque is as it was. */
  lemma ReceiptLinksBack(doc: ChequeEntry, store: Store, today: string)
    requires ReceiptLike(doc, store)
    ensures var after := AfterLinkBack(doc, OnSubmit(doc, store, today, [Submitted("PE-0001", true)])).chequeTable;
      && |after| == 2
      && after[0] == Cheque("R1", 100).(paymentEntry := "PE-0001")
      && after[1] == Cheque("R2", 200).(paymentEntry := "PE-EXISTING")
  {
    var answers := [Submitted("PE-0001", true)];
    ReceiptCreatesOneEntry(doc, store, today);
    ReceiptPlansFirstCheque(doc);
    assert UniqueNames(ReceiptCheques);
    UnlinkedRowAfterRun(doc, store, today, answers, 0, 0);
    LinkedRowsUntouched(doc, store, today, answers, 1);
  }

  /** Three new cheques. */
  const ThreeCheques: seq<ChequeRow> := [Cheque("R1", 100), Cheque("R2", 200), Cheque("R3", 300)]

  /** The store accepts the first document and refuses to insert the
      second; its answer for the third does not matter. */
  predicate SecondInsertFails(answers: seq<Remote>) {
    |answers| >= 2 && answers[0] == Submitted("PE-0001", true) && answers[1] == InsertFails("duplicate")
  }

  lemma ThreeChequesAllNew()
    ensures Unlinked(ThreeCheques) == ThreeCheques
  {
    assert ThreeCheques[1..][1..][1..] == [];
  }

  lemma ThreeChequesUnique()
    ensures UniqueNames(ThreeCheques)
  {
  }

  lemma ChainFailsAtSecond(answers: seq<Remote>)
    requires SecondInsertFails(answers)
    ensures FirstFailure(answers) == 1
  {
    assert answers[1..][0] == InsertFails("duplicate");
  }

  /** A receipt over three new cheques whose second insert fails. The chain
      stops there: the first cheque gets its entry, the second document is
      sent but rejected and the third is never sent. */
  lemma InsertFailureStopsChain(doc: ChequeEntry, store: Store, today: string, answers: seq<Remote>)
    requires doc.paymentType == "Receive" && doc.chequeTable == ThreeCheques
    requires AutoDetect(doc, store).paidTo.Some?
    requires |answers| == |Unlinked(SelectTable(doc))| && SecondInsertFails(answers)
    ensures var o := OnSubmit(doc, store, today, answers);
      && o.Ran?
      && |o.report.sent| == 2
      && |o.report.submitted| == 1
      && o.report.submitted[0] == "PE-0001"
      && o.report.failure == Some(InsertError("duplicate"))
  {
    ThreeChequesAllNew();
    ChainFailsAtSecond(answers);
    var o := OnSubmit(doc, store, today, answers);
    assert SelectTable(doc) == ThreeCheques && |Unlinked(SelectTable(doc))| == 3;
    assert o != NoCheques && o != MissingAccount && o != NoNewEntries;
    RunCounts(doc, store, today, answers);
  }

  /** Both cheques after the failure stay unlinked, so a second submit
      plans them again. */
  lemma InsertFailureLeavesRest(doc: ChequeEntry, store: Store, today: string, answers: seq<Remote>)
    requires doc.paymentType == "Receive" && doc.chequeTable == ThreeCheques
    requires AutoDetect(doc, store).paidTo.Some?
    requires |answers| == |Unlinked(SelectTable(doc))| && SecondInsertFails(answers)
    ensures var after := AfterLinkBack(doc, OnSubmit(doc, store, today, answers)).chequeTable;
      && |after| == 3
      && after[0] == Cheque("R1", 100).(paymentEntry := "PE-0001")
      && after[1] == Cheque("R2", 200)
      && after[2] == Cheque("R3", 300)
  {
    InsertFailureStopsChain(doc, store, today, answers);
    ThreeChequesAllNew();
    ThreeChequesUnique();
    assert |AfterLinkBack(doc, OnSubmit(doc, store, today, answers)).chequeTable| == 3;
    UnlinkedRowAfterRun(doc, store, today, answers, 0, 0);
    UnlinkedRowAfterRun(doc, store, today, answers, 1, 1);
    UnlinkedRowAfterRun(doc, store, today, answers, 2, 2);
  }
}

=== FILE: values.dfy ===
/** Optional text and the JavaScript `a || b || … || null` idiom.

    Every scalar field of the cheque documents is modelled as a `string`,
    with "" standing for every falsy JavaScript value the code meets
    (null, undefined and the empty string alike). A chain of `||` that may
    end in `null` yields an `Option<string>` whose `Some` never holds "".
 */
module Values {

  datatype Option<+T> = None | Some(value: T) {

    /** The wrapped value, or `default` when there is none. */
    function GetOr(default: T): T {
      match this
      case Some(v) => v
      case None => default
    }
  }

  /** `Some(s)` for truthy text, `None` for "" (null, undefined). */
  function Present(s: string): Option<string> {
    if s == "" then None else Some(s)
  }

  /** Back from an optional value to the "" convention. */
  function OrEmpty(o: Option<string>): string {
    o.GetOr("")
  }

  /** `a || b` on already-resolved optional values. */
  function Or(a: Option<string>, b: Option<string>): Option<string> {
    if a.Some? then a else b
  }

  /** Declarative reading of a `||` chain: `r` is the earliest non-empty
      candidate, or `None` exactly when every candidate is empty. */
  ghost predicate IsFirstPresent(r: Option<string>, cands: seq<string>) {
    match r
    case None => forall i :: 0 <= i < |cands| ==> cands[i] == ""
    case Some(v) =>
      exists i :: 0 <= i < |cands| && cands[i] == v && v != "" &&
                  forall j :: 0 <= j < i ==> cands[j] == ""
  }

  /** `c0 || c1 || … || null`, evaluated left to right. */
  function FirstPresent(cands: seq<string>): (r: Option<string>)
    ensures IsFirstPresent(r, cands)
    ensures r != Some("")
    decreases |cands|
  {
    if |cands| == 0 then None
    else if cands[0] != "" then Some(cands[0])
    else FirstPresent(cands[1..])
  }

  /** The chain's result is determined by its declarative reading. */
  lemma FirstPresentUnique(r1: Option<string>, r2: Option<string>, cands: seq<string>)
    requires IsFirstPresent(r1, cands) && IsFirstPresent(r2, cands)
    ensures r1 == r2
  {
    if r1.Some? && r2.Some? {
      var i1 :| 0 <= i1 < |cands| && cands[i1] == r1.value && r1.value != "" &&
                forall j :: 0 <= j < i1 ==> cands[j] == "";
      var i2 :| 0 <= i2 < |cands| && cands[i2] == r2.value && r2.value != "" &&
                forall j :: 0 <= j < i2 ==> cands[j] == "";
      assert i1 == i2;
    }
  }

  /** Splitting a `||` chain: `(a ++ b)` evaluates as `(a) || (b)`. */
  lemma {:induction false} FirstPresentAppend(a: seq<string>, b: seq<string>)
    ensures FirstPresent(a + b) == Or(FirstPresent(a), FirstPresent(b))
    decreases |a|
  {
    if |a| == 0 {
      assert a + b == b;
    } else {
      assert (a + b)[0] == a[0];
      assert (a + b)[1..] == a[1..] + b;
      FirstPresentAppend(a[1..], b);
    }
  }

  /** A fallback chain that restarts with a value the first chain already
      tried (`d`) and ends with values it already tried (`rest`) adds only
      its fresh middle part `c`: `(a) || (d || c || rest)` is `(a ++ c)`. */
  lemma FallbackChain(a: seq<string>, d: string, c: seq<string>, rest: seq<string>)
    requires d in a
    requires forall x :: x in rest ==> x in a
    ensures Or(FirstPresent(a), FirstPresent([d] + c + rest)) == FirstPresent(a + c)
  {
    FirstPresentAppend(a, c);
    if FirstPresent(a).None? {
      assert ([d] + c + rest)[1..] == c + rest;
      FirstPresentAppend(c, rest);
      assert forall i :: 0 <= i < |rest| ==> rest[i] == "" by {
        forall i | 0 <= i < |rest| ensures rest[i] == "" {
          assert rest[i] in a;
        }
      }
    }
  }

  /** Reading off a chain: the first non-empty candidate is the result. */
  lemma FirstPresentAt(r: Option<string>, cands: seq<string>, k: nat)
    requires IsFirstPresent(r, cands)
    requires k < |cands| && cands[k] != ""
    requires forall j :: 0 <= j < k ==> cands[j] == ""
    ensures r == Some(cands[k])
  {
  }

  /** A chain's value is one of its candidates. */
  lemma FirstPresentIn(r: Option<string>, cands: seq<string>)
    requires IsFirstPresent(r, cands)
    ensures r.Some? ==> r.value in cands
  {
    if r.Some? {
      var i :| 0 <= i < |cands| && cands[i] == r.value && r.value != "" &&
               forall j :: 0 <= j < i ==> cands[j] == "";
    }
  }

  /** A chain is null exactly when all its candidates are empty. */
  lemma FirstPresentNone(r: Option<string>, cands: seq<string>)
    requires IsFirstPresent(r, cands)
    ensures r.None? <==> forall x :: x in cands ==> x == ""
  {
    if r.None? {
      forall x | x in cands ensures x == "" {
        var i :| 0 <= i < |cands| && cands[i] == x;
      }
    } else {
      var i :| 0 <= i < |cands| && cands[i] == r.value && r.value != "" &&
               forall j :: 0 <= j < i ==> cands[j] == "";
      assert cands[i] in cands;
    }
  }
}
